=== FILE: README.md ===
# AMI 430 magnet-ramping core, modelled in Dafny

This project models the part of the labber_AMI430 driver that decides what
happens to a superconducting magnet station. A station has two or three axes,
and each axis has an American Magnetics AMI 430 power supply. Some axes also
have a persistent-switch heater. The model covers:

- **The enumerations and their codecs.** These are `EnumMixin.get_exception`,
  `from_visa` and `all_text`, and the enums `AMI430State`, `LabberState`,
  `ControlMode` and `EnumLogging`. It also covers the table that maps an
  instrument state to the status reported to the measurement program.
- **The magnet and station configuration.** This is `AMI430_utils.py`: coil
  constant, stability parameter, expected current ramp time and the number of
  axes.
- **The per-axis ramping state machine.** This is `RampingStatemachineMagnet`:
  `INIT`, `WAITFOR_CURRENT`, `WAITFOR_SWITCH_WARM`, `WAITFOR_HOLDING`,
  `WAITFOR_SWITCH_COLD`, `WAITFOR_ZERO_CURRENT` and `DONE`. It includes the
  commands each tick writes and the two timeouts.
- **The station orchestrator.** This is `RampingStatemachineStation`. Ramping
  starts by queueing the present axes, smallest signed field increment first.
  A tick creates the machine of the next axis, ticks it, and drops it once
  it is done.
- **`VisaStation`.** This covers `open`, `get_labber_state`, and the `tick`
  loop that repeats station ticks while the state text changes. It also covers
  the `set_quantity` / `get_quantity` dispatch on the quantities the driver
  knows.
- **The field-limit validator.** This is `field_limit_tests.py`. A setpoint
  vector must lie in one of three safe zones before it is written.
- **The log parser.** This covers the line pattern `re_line`, `parse_file` with
  and without a time window, and the four dataframe kinds that pick samples
  out of tagged log lines.

Everything is pure. Each of the following becomes a value:

- A query to a supply becomes an `Observation`.
- The replies of one station tick become `Readings`.
- A write becomes a `Command` in the trace a step returns.
- The clock becomes a `now: real` parameter.
- A Python exception becomes an `Errors.Fault` inside a `Result`.

The modules, in dependency order:

- `Wrappers`
- `Errors`
- `Text`
- `DriverUtils`
- `Config`
- `InstrumentState`
- `StationStatus`
- `Instrument`
- `MagnetRamping`
- `StationRamping`
- `Controller`
- `FieldLimit`
- `LogParser`
- `Dataframes`

The model follows the code in these places:

- `WAITFOR_SWITCH_COLD` advances on `HOLDING`, not on `PAUSED`.
- The aggregate status does not remap the hold states.
- A ramp rate is stored exactly as given, with no clamping.
- `start_ramping` appends to the queue without clearing it.
- The field-limit validator checks a setpoint before writing it.

## Model

| member | source | states |
|---|---|---|
| DriverUtils.FindByName | AMI430_driver_utils.py:23 | `cls[name]` finds a member carrying that name, or reports that no member has it |
| DriverUtils.FindByValue | AMI430_driver_utils.py:36 | `cls(value)` finds a member carrying that value, or reports that no member has it |
| DriverUtils.AllText | AMI430_driver_utils.py:14-16 | the text is the double-quoted member names, sorted in string order and joined by ", " |
| DriverUtils.GetException | AMI430_driver_utils.py:18-25 | succeeds exactly when some member has the given name, and returns that member; otherwise it raises the "Unkown ..." message naming the text |
| DriverUtils.UnknownMessageNames | AMI430_driver_utils.py:21 | the error message quotes the offending text right after `Unkown "` |
| DriverUtils.NamesInjective | AMI430_driver_utils.py:41-44 | in a well-formed enum, two members with the same name are the same member |
| DriverUtils.ValuesInjective | AMI430_driver_utils.py:41-44 | in a well-formed enum, two members with the same value are the same member |
| DriverUtils.GetExceptionName | AMI430_driver_utils.py:18-25 | round trip: looking a member up by its own name gives that member back |
| DriverUtils.FromVisaAsWritten | AMI430_driver_utils.py:27-38 | non-integer text raises the descriptive exception. An integer reply succeeds exactly when some member has that value, and returns such a member; an integer that is no member's value, in any spelling, ends in a bare ValueError |
| DriverUtils.FromVisa | AMI430_driver_utils.py:27-38 | for replies written in ASCII digits: succeeds exactly when the reply is the integer of some member's value, and returns that member; every other reply raises the descriptive exception |
| DriverUtils.FromVisaAgrees | AMI430_driver_utils.py:27-38 | the code as written and the corrected decode agree whenever the reply decodes |
| DriverUtils.FromVisaValue | AMI430_driver_utils.py:32-36 | round trip: the decimal text of a member's value decodes to that member |
| DriverUtils.FromVisaUnknownValue | AMI430_driver_utils.py:35-38 | for an integer that is no member's value, the code lets ValueError escape, while the corrected decode raises the message |
| DriverUtils.LoggingWellFormed | AMI430_driver_utils.py:41-44 | EnumLogging lists every level once, with unique names and values |
| DriverUtils.LoggingNamed | AMI430_driver_utils.py:18-25 | `EnumLogging.get_exception` succeeds exactly on the name of a level |
| InstrumentState.StateClassWellFormed | AMI430_visa.py:34-44 | the ten instrument states are listed once each, with unique names and numbers |
| StationStatus.LabberClassWellFormed | AMI430_visa.py:57-63 | the six station statuses are listed once each, with unique names and numbers |
| StationStatus.ModeClassWellFormed | AMI430_visa.py:75-77 | the two control modes are listed once each, with unique names and numbers |
| StationStatus.LabberOf | AMI430_visa.py:46-54 | RAMPING, HOLDING and PAUSED map to their namesakes (both directions); the two zero-current states map to IDLE; every other state maps to ERROR; nothing maps to MISALIGNED |
| StationStatus.Eq | AMI430_driver_utils.py:10-12 | comparing members of different enums fails its assertion; within one enum the result is equality |
| StationStatus.HoldingReply | AMI430_visa.py:36 | the reply "2" decodes to HOLDING |
| StationStatus.PaddedReply | AMI430_driver_utils.py:32 | every state decodes from its number, whatever whitespace surrounds the reply |
| StationStatus.UnknownReply | AMI430_driver_utils.py:35-38 | the reply "11" is not a state; the code as written lets ValueError escape |
| StationStatus.NameIsNoReply | AMI430_driver_utils.py:31-34 | the name "HOLDING" is not an integer reply, so it raises the descriptive exception |
| Config.CoilConstant | AMI430_utils.py:34-36 | the result times the current limit is the field limit; a zero current limit raises ZeroDivisionError |
| Config.CoilConstantPositive | AMI430_utils.py:34-36 | positive limits give a strictly positive coil constant |
| Config.StabilityParameter | AMI430_utils.py:38-42 | zero with a switch heater; otherwise the parameter plus the inductance is 100 |
| Config.ExpectedCurrentRamptime | AMI430_utils.py:44-47 | a magnet without a heater fails the assertion; otherwise the result times the persistent-current ramp rate is the current limit, and a missing or zero rate fails |
| Config.StationAxis | AMI430_utils.py:59-61 | AXIS2 exactly when there is no X magnet; the axis value counts the magnets |
| Config.SofiaFacts | AMI430_driver_config_sofia.py:13-40 | the Sofia installation has two axes, passes the construction check, and has the stated derived quantities |
| Instrument.AxisLabel | AMI430_visa.py:389-391 | every axis name is a single letter |
| Instrument.NewAxis | AMI430_visa.py:556-568 | a new axis handle has setpoint and ramp rate zero and no field reached yet |
| MagnetRamping.Ordinal | AMI430_visa.py:80-87 | the phase values run from 1 to 7, and 7 is exactly DONE |
| MagnetRamping.PhaseNameInjective | AMI430_visa.py:126-128 | distinct phases have distinct names, so a phase change always shows in the state text |
| MagnetRamping.Start | AMI430_visa.py:89-114 | the deadline starts at the current time; the machine starts DONE exactly when the last ramp ended within 1e-12 of the setpoint and the supply reports HOLDING, and otherwise it starts in INIT |
| MagnetRamping.StartRampingCommands | AMI430_visa.py:142-155 | a ramp start writes PAUSE first and RAMP last, and loads the handle's own rate and target in between |
| MagnetRamping.Tick | AMI430_visa.py:141-242 | phases never move backwards; a tick without a phase change or exception writes nothing and changes nothing; a raising tick is never DONE; the configuration, setpoint and rate are kept; the recorded field only ever becomes the setpoint |
| MagnetRamping.DoneAbsorbing | AMI430_visa.py:242 | a DONE machine neither moves, writes nor raises |
| MagnetRamping.TimeoutExactly | AMI430_visa.py:217-241 | a tick raises "Timeout" exactly when it waits for the switch to cool or the current to reach zero, the awaited state is not reported, and the clock is past the deadline |
| MagnetRamping.TickKeepsPhaseFit | AMI430_visa.py:157-161 | a magnet without a switch heater never enters a heater phase |
| MagnetRamping.ConsistentOnlyTimesOut | AMI430_visa.py:157-241 | for a magnet that passed the construction check, a timeout is the only exception a tick raises |
| MagnetRamping.HoldingOutcome | AMI430_visa.py:196-215 | on HOLDING after a ramp, the reached field is recorded. The machine is done exactly when there is no heater or the switch stays heated; otherwise it writes PS 0 and waits for cooling, with deadline cool time plus 10 s |
| MagnetRamping.ColdOutcome | AMI430_visa.py:217-230 | with a cooled switch, the machine is done exactly when the current is held; otherwise it writes ZERO under a deadline of 1.5 times the expected current ramp time |
| MagnetRamping.RampWithSetpoint | AMI430_visa.py:142-160 | the target setpoint is written exactly on the tick that enters WAITFOR_HOLDING |
| MagnetRamping.TransitionsBounded | AMI430_visa.py:157-242 | over any run of ticks, the number of phase changes is bounded by the ordinal distance covered, so there are at most six |
| StationRamping.BeforeTotal | AMI430_visa.py:274 | the stable order by increment is total and antisymmetric |
| StationRamping.InsertKeyed | AMI430_visa.py:274 | inserting into a sorted list keeps it sorted and adds exactly the new element |
| StationRamping.SortKeyed | AMI430_visa.py:274 | the result is a sorted permutation of the input |
| StationRamping.SortedUnique | AMI430_visa.py:274 | two sorted permutations of each other are equal |
| StationRamping.Increments | AMI430_visa.py:267-273 | each present axis, in the order X, Y, Z, is paired with its setpoint minus its measured field |
| StationRamping.SortAxes | AMI430_visa.py:274-276 | sorting rearranges the axes and nothing more |
| StationRamping.StartRamping | AMI430_visa.py:263-276 | not done afterwards, and the active machine is kept; the old queue is kept as a prefix; the appended block is a permutation of the present axes, ordered by non-decreasing increment |
| StationRamping.Block | AMI430_visa.py:267-276 | the block is a permutation of the present axes, ordered by non-decreasing increment |
| StationRamping.StartRampingKeepsValid | AMI430_visa.py:263-276 | starting a ramp keeps the orchestrator invariant |
| StationRamping.StartRampingAsWritten | AMI430_visa.py:263-276 | the code as written raises TypeError exactly when two present axes have equal increments, and leaves the queue untouched; otherwise it agrees with StartRamping |
| StationRamping.TieDiffers | AMI430_visa.py:274 | equal increments make the code as written raise, while the corrected start still queues the axes |
| StationRamping.StartRampingUnique | AMI430_visa.py:274-276 | the appended block is the one sorted arrangement of the keyed axes |
| StationRamping.Tag | AMI430_visa.py:143-155 | each command of a machine tick is addressed to the machine's axis |
| StationRamping.Tick | AMI430_visa.py:285-302 | with nothing left to ramp the tick only sets done. Otherwise the queue loses its head when nothing was active, only the ticked axis changes or receives commands, and the invariant is kept; how the machine is stepped is stated by TickSteps |
| StationRamping.TickSteps | AMI430_visa.py:287-302 | the active axis, or a new machine for the head of the queue, is stepped by the per-axis tick; the station takes over that step's handle, commands and exception, and drops the machine exactly when it reached DONE |
| StationRamping.TickProgress | AMI430_visa.py:285-302 | a tick that does not raise either changes nothing or decreases the measure |
| StationRamping.TickOnlyTimesOut | AMI430_visa.py:285-302 | with magnets that passed the construction check, a station tick raises only a timeout |
| StationRamping.TextChangeMeansProgress | AMI430_visa.py:278-302 | a tick that changes the state text decreases the measure |
| Controller.Init | AMI430_visa.py:306-321 | a new station has both hold flags set, DEBUG logging, PASSIVE mode, no axes, and an idle orchestrator |
| Controller.Configured | AMI430_visa.py:388-391 | the number of opened magnets is the station's axis value |
| Controller.Open | AMI430_visa.py:379-391 | succeeds exactly when every configured magnet passes the construction check; it then creates a fresh handle for each configured axis and changes nothing else |
| Controller.OpenCount | AMI430_visa.py:333-343 | an opened station lists as many axes as its axis value, and is valid |
| Controller.GetLabberState | AMI430_visa.py:349-360 | MISALIGNED while ramping or when the axes disagree; otherwise the status of the one shared state; a station without axes fails its assertion |
| Controller.LabberStateAgreed | AMI430_visa.py:349-360 | once ramping is done and the axes agree, the status is never MISALIGNED, and it is IDLE exactly for the zero-current states |
| Controller.TickOnce | AMI430_visa.py:285-302 | one station tick is `StationRamping.Tick` of the station's orchestrator, axes, hold flags and the sample. The station takes over the tick's orchestrator and axes, nothing else changes, and it stays valid |
| Controller.TickKeepsMagnets | AMI430_visa.py:285-302 | a tick never adds an axis and never changes a magnet's configuration |
| Controller.Iterate | AMI430_visa.py:365-377 | any number of ticks keeps the station valid |
| Controller.Drain | AMI430_visa.py:365-377 | the loop ends after at most measure+1 ticks. Its station, exception and written commands are those of a run of that many ticks, the commands in tick order. The state text changes at every tick but the last, which leaves it alone unless it raised |
| Controller.DrainExtend | AMI430_visa.py:368-377 | a text-changing first tick followed by a run is a run one tick longer |
| Controller.DrainLast | AMI430_visa.py:368-373 | a run of one tick ends at that tick, raising what it raised |
| Controller.FlagOf | AMI430_visa.py:430-431 | only "True" and "False" are accepted, mapping to true and false; anything else is a KeyError |
| Controller.LabberAnswer | AMI430_visa.py:457 | the answer is the name of the current status, and MISALIGNED while ramping |
| Controller.RequestLabberState | AMI430_visa.py:437-457 | RAMPING starts ramping with the corrected start of Findings row 2 and is then answered MISALIGNED; any other value changes nothing and is answered with the current status |
| Controller.SetQuantity | AMI430_visa.py:401-459 | unknown quantities answer 43 and change nothing. The switch-heater status is echoed. Logging-level, mode and labber-state requests are routed to SetLogging, SetMode and RequestLabberState. With the corrected start, the only failures are assertions, KeyError and descriptive exceptions. The configuration and the set of axes never change |
| Controller.SetLogging | AMI430_visa.py:418-420 | a text that names a level stores that level and echoes the text, changing nothing else; any other text raises the "Unkown ..." message of EnumLogging and changes nothing |
| Controller.SetMode | AMI430_visa.py:421-423 | a text that names a control mode stores that mode and echoes the text, changing nothing else; any other text raises the "Unkown ..." message of ControlMode and changes nothing |
| Controller.GetQuantity | AMI430_visa.py:479-520 | unlisted quantities give None; a per-axis quantity fails exactly when its axis is absent, and otherwise gives the stored setpoint or rate, or the state name or field read from its supply. The name, axis count, logging level, mode and hold flags are read back as stored. The heater status is 0 without a Z axis, an assertion failure when Z has no heater, and otherwise the Z supply's reply. The station status is the name of `get_labber_state`'s answer, or its error |
| Controller.SetpointRoundTrip | AMI430_visa.py:401-407 | setting the field setpoint of a present axis stores exactly that value, `get` returns it, and nothing else changes |
| Controller.RampRateRoundTrip | AMI430_visa.py:410-415 | setting the ramp rate stores exactly that value, with no limit; `get` returns it, and nothing else changes |
| Controller.RampRateIdempotent | AMI430_visa.py:410-415 | setting a ramp rate twice is the same as setting it once |
| Controller.SetpointNeedsReal | AMI430_visa.py:403-412 | only reals are accepted for setpoints and rates, even for an absent axis, which is then a no-op |
| Controller.HoldFlagRoundTrip | AMI430_visa.py:429-436 | a hold flag accepts exactly "True" and "False", `get` reads back the flag, and nothing else changes |
| Controller.LoggingRoundTrip | AMI430_visa.py:418-420 | a logging level set by name is read back by name |
| Controller.ModeRoundTrip | AMI430_visa.py:421-423 | a control mode set by name is read back as its number |
| Controller.LabberStateRequest | AMI430_visa.py:447-457 | requesting RAMPING starts ramping with the corrected start and is answered MISALIGNED |
| Controller.LabberStateOtherRequest | AMI430_visa.py:452-457 | requesting any other state changes nothing and answers the current status, or its failure |
| Controller.SetKeepsValid | AMI430_visa.py:401-459 | every successful set keeps an opened station valid |
| Controller.AxisUpdateKeepsValid | AMI430_visa.py:405-414 | replacing an axis handle by one with the same magnet keeps the station valid |
| FieldLimit.AnyHolds | field_limit_tests.py:25-27 | true exactly when some zone holds the vector |
| FieldLimit.Replace | field_limit_tests.py:18-24 | only the named coordinate is replaced |
| FieldLimit.CheckFieldSetpoint | field_limit_tests.py:17-28 | the vector with the one setpoint replaced lies in some zone |
| FieldLimit.SetQuantity | field_limit_tests.py:30-41 | an unknown name is a KeyError. A known name succeeds exactly when the new vector lies in some zone, and then writes only that axis. Otherwise it raises "The value is not allowed" |
| FieldLimit.SetUnchangedValue | field_limit_tests.py:30-37 | re-setting a coordinate of an allowed vector to its own value changes nothing |
| FieldLimit.OnZAxisVectors | AMI430_test.py:26-37 | the origin, the tiny negative vector and (0,0,6) are accepted; (0,0,6.01) and (0,0,6.1) are not |
| FieldLimit.AxisVectors | AMI430_test.py:38-53 | (1,0,0) is accepted; (1.1,0,0), (0,3.1,0), (1,0.002,0), (0.00001,3,0) and (12,12,12) are not |
| FieldLimit.DiscRimVector | AMI430_test.py:34 | (0, 3/√2, 3/√2) is accepted |
| FieldLimit.SphereVectors2 | AMI430_test.py:35-36 | (1/√2, 1/√2, 0) and (1/√2, 0, 1/√2) are accepted |
| FieldLimit.SphereVectors3 | AMI430_test.py:33 | (1/√3, 1/√3, 1/√3) is accepted, and stretching its x by 0.1 % is not |
| LogParser.UpperRun | AMI430_logparser.py:14 | the length of the maximal run of upper-case letters that `[A-Z]+` consumes |
| LogParser.WordRun | AMI430_logparser.py:14 | the length of the maximal run of word characters that `[A-Za-z0-9_]+` consumes |
| LogParser.SplitTag | AMI430_logparser.py:14 | a tagged body is a non-empty severity of upper-case letters, a space, a non-empty word tag, a space, and the message |
| LogParser.MatchLine | AMI430_logparser.py:13-15 | a match has a stamp of the required shape and a message without a line break |
| LogParser.SplitTagRender | AMI430_logparser.py:14 | round trip: a rendered severity and tag are split back off |
| LogParser.StampedLine | AMI430_logparser.py:13-15 | a stamp, a space and any body without a line break is a match |
| LogParser.StampedLineBreak | AMI430_logparser.py:13-15 | the same line with a final line break matches the same way |
| LogParser.MatchRender | AMI430_logparser.py:13-33 | round trip: a well-formed match is recognised again in the line it renders to, with or without a final line break |
| LogParser.RenderMatch | AMI430_logparser.py:13-33 | round trip: every matched line is the rendering of its match, possibly followed by a line break, and the match is well formed |
| LogParser.ParseAll | AMI430_logparser.py:126-131 | one log per line, numbered from 1, matching the line stripped of trailing whitespace |
| LogParser.ParseAllRender | AMI430_logparser.py:128-130 | a match of a stripped line renders to the whole stripped line |
| LogParser.FirstNotBelow | AMI430_logparser.py:135-138 | the first line at or after the start that is not below `from` |
| LogParser.FirstStop | AMI430_logparser.py:139-141 | the first line at or after the start that is above `to` and begins with "202" |
| LogParser.ScanWindow | AMI430_logparser.py:132-141 | the window starts at the first line not below `from`, and stops at the first later line that is above `to` and begins with "202" |
| LogParser.ParseWindow | AMI430_logparser.py:132-144 | exactly the lines of the window, unstripped, each numbered by its position in the file |
| Dataframes.ParseStamp | AMI430_logparser.py:72-75 | succeeds exactly when the stamp has the pattern's shape and its fields form a valid date and time, otherwise ValueError; the fraction is whole milliseconds |
| Dataframes.Pad | AMI430_logparser.py:73 | a number padded to the given width is all digits |
| Dataframes.PadValue | AMI430_logparser.py:73 | padded digits read back as the number |
| Dataframes.FormatStampShape | AMI430_logparser.py:13-15 | a written stamp has the shape the line pattern requires and holds each field in its place |
| Dataframes.WrittenFields | AMI430_logparser.py:73 | the fields read from a written stamp are the fields written |
| Dataframes.ParseFormatStamp | AMI430_logparser.py:72-75 | round trip: a written stamp parses back to the same date and time, to the millisecond |
| Dataframes.NewFrame | AMI430_logparser.py:36-42 | a new frame has empty lists |
| Dataframes.Record | AMI430_logparser.py:72-75 | appending a sample keeps one time stamp per value, and extends both lists by one |
| Dataframes.GrowsBalanced | AMI430_logparser.py:40-41 | a frame that only ever grows by whole samples stays balanced |
| Dataframes.DurationRun | AMI430_logparser.py:66-67 | the maximal prefix of characters in `[0-9.e+-0-9]`, the range `+-0` included |
| Dataframes.StatusNamed | AMI430_logparser.py:61 | `LabberState[msg]` finds a status exactly when some status has that name |
| Dataframes.PickBase | AMI430_logparser.py:57-70 | a status line with a valid stamp is recorded exactly when the message names a status, as the parsed stamp and the status number labelled with its name; otherwise it fails with KeyError. A duration line records the leading duration exactly when it parses as a float; an empty leading run fails with AttributeError, an unparseable one or an invalid stamp with ValueError. Any other tag raises "Needs to be overwritten". Nothing is appended on failure |
| Dataframes.PickField | AMI430_logparser.py:82-89 | a line for another magnet changes nothing; for the frame's magnet it records the field after the first space, or fails with ValueError |
| Dataframes.PickState | AMI430_logparser.py:96-105 | a message that is not three tokens fails with ValueError. A three-token line for another magnet leaves the frame unchanged without raising. For the frame's own magnet, the line is recorded iff the state number and the stamp parse, at the parsed stamp, as the number labelled with the state name; otherwise ValueError |
| Dataframes.PickSetpoint | AMI430_logparser.py:112-121 | a message that is not three tokens fails with ValueError, and an empty quantity with IndexError. A line for another quantity or another magnet leaves the frame unchanged without raising. `ControlSetpoint` followed by the frame's magnet letter is recorded iff the first value and the stamp parse, at the parsed stamp with the first value, appended only after the decode succeeds; otherwise ValueError |
| Dataframes.Pick | AMI430_logparser.py:57-121 | every successful pick grows the frame by at most one whole sample |
| Dataframes.Pick2 | AMI430_logparser.py:44-55 | an unmatched line, an untagged line, or a line with another tag leaves the frame alone |
| Dataframes.PickAsWrittenAgrees | AMI430_logparser.py:57-121 | the code as written raises in the same cases with the same exception, and agrees when nothing is raised; when it raises it may leave a lone time stamp behind |
| Dataframes.TornStatusAppend | AMI430_logparser.py:58-61 | an unknown status name leaves a time stamp without a value, so the frame is unbalanced |
| Dataframes.TornSetpointAppend | AMI430_logparser.py:116-120 | a setpoint line whose value is not a number leaves a time stamp without a value |
| Dataframes.SetpointMessage | AMI430_logparser.py:113-115 | a setpoint message splits into quantity, value and new value, and the quantity into base and magnet letter |
| Dataframes.StatusRecorded | AMI430_logparser.py:44-63 | a status line is recorded as its status number, labelled with its name |
| Dataframes.MagnetStateRecorded | AMI430_logparser.py:96-105 | a magnet-state line for the frame's magnet is recorded as its number, labelled with its state |
| Dataframes.SetpointRecorded | AMI430_logparser.py:112-120 | a setpoint line for the frame's magnet is recorded as its first value |
| Dataframes.FieldRecorded | AMI430_logparser.py:82-89 | a field line for the frame's magnet is recorded as the number after the magnet |
| Dataframes.FoldBalanced | AMI430_logparser.py:40-41 | after any sequence of corrected picks, every time stamp has its value |
| Dataframes.FoldStops | AMI430_logparser.py:44-55 | once a pick has raised, later logs change nothing |
| Dataframes.PickAll | AMI430_logparser.py:44-55 | feeding the logs to a frame in turn, stopping at the first exception, keeps it balanced |
| Text.RStrip | AMI430_logparser.py:128 | `rstrip` removes exactly the trailing whitespace |
| Text.Sort | AMI430_driver_utils.py:16 | `sorted` returns a sorted permutation |
| Text.LexLessTotal | AMI430_logparser.py:136-139 | Python's string order is total |
| Text.Split | AMI430_logparser.py:99 | `split` pieces hold no separator and join back to the text |
| Text.Partition | AMI430_logparser.py:84 | `partition` cuts at the first separator and loses nothing; with no separator in the text the result is the text followed by two empty strings |
| Text.ParseIntText | AMI430_driver_utils.py:32 | `int(str(i)) == i` |
| Text.ParsePaddedText | AMI430_driver_utils.py:32 | `int` ignores whitespace around the digits |

## Left out

- Thread, transport and logging are not modelled:
  - the driver thread (`AMI430_thread.py`);
  - the pyvisa transport (`VisaMagnet.open`, `_visa_clear`, `_visa_init`, `ask_raw`, `write_raw`, `close`);
  - the Labber and qcodes glue, the plotting scripts, `wait_till_ramped` and `main`;
  - the logger file handler and every log message.

  They are I/O or foreign calls. The supplies' replies are parameters, and commands are returned as a trace.
- Float parsing and formatting are left out. Python's `float(text)` is the parameter `parseFloat`, and the `:f` rendering of commands is kept as the numeric value in `ConfRampRate` / `ConfTarget`. This avoids modelling floating point.
- Floats are modelled as exact reals. Rounding in `abs(a - b) < 1e-12`, in the zone norms and in the deadlines is not modelled.
- One `Observation` per axis per station tick is used. The constructor of a new machine and its first tick therefore see the same reply, where the code sends two queries.
- Undecodable replies are not modelled. A `STATE?` or `PS?` reply that is not a valid state or integer cannot occur in the model; reply decoding is modelled separately by `DriverUtils.FromVisa`.
- `expected_ramp_duration_s` is not modelled: its only use computes a deadline that is discarded.
- Opening is all or nothing. A station whose second magnet fails its construction check keeps the first magnet's handle in the code; the model reports only the failure.
- `Magnet.consitency_check` is called but its definition is not part of this model. It is modelled as `Config.Consistent`: a switch-heated magnet carries all four heater fields and a non-zero persistent-current ramp rate. A failure is a `ConfigurationError`.
- `LoggerTags` is not part of this model. Its members are inferred from their uses: LABBER_STATE, RAMPING_DURATION_S, MAGNET_FIELD, MAGNET_STATE and LABBER_SET.
- `Quantity` in `AMI430_driver_utils.py` lacks the members the station uses. `Controller.Quantity` lists those members, parameterised by axis.
- `LabberState.valid_set_by_labber` is not modelled: it refers to a member `OFF` that does not exist.
- `\d` in the line pattern is restricted to ASCII digits. Python also accepts other Unicode decimal digits.
- DriverUtils.FromVisa: integer text is read with ASCII digits only. Python's `int()` also accepts other Unicode decimal digits, such as Arabic-Indic or full-width ones. A reply written in those digits fails here, where Python decodes it. The same restriction applies to `Text.ParseInt`, and so to `DriverUtils.FromVisaAsWritten` and `Dataframes.PickState`. It keeps the digit tables out of the model; an AMI 430 replies in ASCII.
- Controller.RequestLabberState: a RAMPING request runs the corrected `StationRamping.StartRamping` of Findings row 2. The source raises TypeError on this path whenever two present axes need the same field change; `StationRamping.StartRampingAsWritten` and `StationRamping.TieDiffers` state that case.
- Controller.LabberStateRequest: states the corrected start for every station, for the same reason as Controller.RequestLabberState.
- An untagged line keeps its text in `msg`. Python's `msg` group is None there, but `pick2` never passes such a line on.
- Controller.SetQuantity: its failure kinds leave out the TypeError a RAMPING request raises in the source on equal increments, because the request uses the corrected start. Its own contract pins down the routing and the error kinds. The setpoint, ramp-rate and hold-flag behaviour is stated by the round-trip lemmas listed above, and the logging level and mode by SetLogging and SetMode.
- StationRamping.Tick: its own contract states queue handling, framing and the invariant only. How the active machine is stepped and when it is dropped is stated by StationRamping.TickSteps.
- Dataframes.Pick: its contract states only that a success grows the frame by at most one sample. The per-kind behaviour is in PickBase, PickField, PickState and PickSetpoint.
- MagnetRamping.Tick: its contract states monotonicity and framing. The phase-by-phase outcomes are stated by HoldingOutcome, ColdOutcome, TimeoutExactly and RampWithSetpoint. The INIT, WAITFOR_CURRENT and WAITFOR_SWITCH_WARM branches have no outcome lemma of their own beyond RampWithSetpoint and TickKeepsPhaseFit.
- The station configuration files are not modelled, and neither is `validate_field_limit`. The configuration files do not construct as written, and `validate_field_limit` is not part of this model. The test vectors of `AMI430_test.py` are checked against the zones of `field_limit_tests.py`. Sofia's magnet numbers serve as a concrete instance.

## Findings

| source | as written | input that shows it | evidently intended | confidence | as-written member | corrected member |
|---|---|---|---|---|---|---|
| AMI430_driver_utils.py:35-38 | `cls(value)` raises ValueError for an unknown integer, but only KeyError is caught | the reply "11" decoded as an `AMI430State` (StationStatus.UnknownReply) | every undecodable reply raises the descriptive "Unkown ..." exception | high, not executed | DriverUtils.FromVisaAsWritten | DriverUtils.FromVisa |
| AMI430_visa.py:274 | `tmp_magnets.sort()` on `(increment, VisaMagnet)` tuples compares the magnets when increments are equal, and raises TypeError | two present axes both already at their setpoints, increment 0.0 each (StationRamping.TieDiffers); it is reached from a RAMPING labber-state request at AMI430_visa.py:449 | order equal increments stably, in the order X, Y, Z | high, not executed | StationRamping.StartRampingAsWritten | StationRamping.StartRamping |
| AMI430_logparser.py:57-121 | the time stamp is appended before the value decode that can raise | a `LABBER_STATE` line whose message is no status name (Dataframes.TornStatusAppend), or a setpoint line whose value is no number (Dataframes.TornSetpointAppend) | decode first, so that time stamps and values stay paired | medium, not executed | Dataframes.PickAsWritten | Dataframes.Pick |

=== FILE: config.dfy ===
/**
 * The static configuration of a magnet axis and of a station (2 or 3 axes),
 * and the quantities derived from it that the instrument is configured with.
 * Field values are in tesla, currents in ampere, times in seconds.
 */
module Config {
  import opened Wrappers
  import opened Errors

  /** The magnitude of a field or field difference. */
  function Abs(x: real): (r: real)
    ensures r >= 0.0 && (r == x || r == -x)
  {
    if x < 0.0 then -x else x
  }

  /** The number of magnet axes of a station; the numeric value is the count. */
  datatype Axis = AXIS2 | AXIS3

  function AxisValue(a: Axis): nat {
    match a
    case AXIS2 => 2
    case AXIS3 => 3
  }

  function AxisText(a: Axis): string {
    match a
    case AXIS2 => "AXIS2"
    case AXIS3 => "AXIS3"
  }

  /** One magnet axis; the four switch-heater fields are `None` unless the magnet has a switch heater. */
  datatype Magnet = Magnet(
    ipAddress: string,
    currentLimitA: real,
    fieldLimitT: real,
    rampRateLimitApers: real,
    rampRateInitialApers: real,
    inductanceH: real,
    hasSwitchheater: bool,
    switchheaterHeatTimeS: Option<real>,
    switchheaterCoolTimeS: Option<real>,
    switchheaterCurrentA: Option<real>,
    persistentCurrentRampRateApers: Option<real>)

  /** `coil_constant_TperA`: tesla per ampere; dividing by a zero current limit raises. */
  function CoilConstant(m: Magnet): (r: Result<real, Fault>)
    ensures r.Success? <==> m.currentLimitA != 0.0
    ensures r.Success? ==> r.value * m.currentLimitA == m.fieldLimitT
    ensures r.Failure? ==> r.error == ZeroDivisionError
  {
    if m.currentLimitA == 0.0 then Failure(ZeroDivisionError)
    else Success(m.fieldLimitT / m.currentLimitA)
  }

  /** A magnet with positive limits has a strictly positive coil constant. */
  lemma CoilConstantPositive(m: Magnet)
    requires m.currentLimitA > 0.0 && m.fieldLimitT > 0.0
    ensures CoilConstant(m).Success? && CoilConstant(m).value > 0.0
  {
  }

  /** `stability_parameter`: zero for a switch-heated magnet, otherwise 100 minus the inductance. */
  function StabilityParameter(m: Magnet): (r: real)
    ensures m.hasSwitchheater ==> r == 0.0
    ensures !m.hasSwitchheater ==> r + m.inductanceH == 100.0
  {
    if m.hasSwitchheater then 0.0 else 100.0 - m.inductanceH
  }

  /**
   * `expected_current_ramptime_cold_switch_s`: the time to ramp the full current
   * limit at the persistent-current ramp rate. Asserts a switch heater; a missing
   * rate cannot be divided by and a zero rate raises.
   */
  function ExpectedCurrentRamptime(m: Magnet): (r: Result<real, Fault>)
    ensures r.Success? <==> m.hasSwitchheater && m.persistentCurrentRampRateApers.Some? && m.persistentCurrentRampRateApers.value != 0.0
    ensures r.Success? ==> r.value * m.persistentCurrentRampRateApers.value == m.currentLimitA
    ensures !m.hasSwitchheater ==> r == Failure(AssertionError)
  {
    if !m.hasSwitchheater then Failure(AssertionError)
    else match m.persistentCurrentRampRateApers
      case None => Failure(TypeError)
      case Some(rate) => if rate == 0.0 then Failure(ZeroDivisionError) else Success(m.currentLimitA / rate)
  }

  /**
   * The check a magnet passes before an axis handle is built for it: a switch-heated
   * magnet carries all four heater fields and a non-zero persistent-current ramp rate.
   */
  predicate Consistent(m: Magnet) {
    m.hasSwitchheater ==>
      && m.switchheaterHeatTimeS.Some?
      && m.switchheaterCoolTimeS.Some?
      && m.switchheaterCurrentA.Some?
      && m.persistentCurrentRampRateApers.Some?
      && m.persistentCurrentRampRateApers.value != 0.0
  }

  /** A station: Y and Z always, X optional. */
  datatype Station = Station(name: string, zAxis: Magnet, yAxis: Magnet, xAxis: Option<Magnet>)

  /** `Station.axis`: two axes exactly when there is no X magnet. */
  function StationAxis(s: Station): (r: Axis)
    ensures r == AXIS2 <==> s.xAxis.None?
    ensures AxisValue(r) == 2 + (if s.xAxis.Some? then 1 else 0)
  {
    if s.xAxis.None? then AXIS2 else AXIS3
  }

  /** The numbers of the installation "Sofia": a plain Y magnet and a switch-heated Z magnet. */
  const Sofia: Station := Station(
    "Sofia",
    Magnet("TCPIP0::169.254.201.182::7180::SOCKET", 61.98, 6.0, 0.0909, 0.06, 11.0,
           true, Some(30.0), Some(600.0), Some(0.0201), Some(10.0)),
    Magnet("TCPIP0::169.254.70.51::7180::SOCKET", 79.77, 3.0, 0.0353, 0.02, 28.3,
           false, None, None, None, None),
    None)

  /** Sofia is a two-axis station whose magnets pass the construction check. */
  lemma SofiaFacts()
    ensures StationAxis(Sofia) == AXIS2
    ensures Consistent(Sofia.yAxis) && Consistent(Sofia.zAxis)
    ensures ExpectedCurrentRamptime(Sofia.zAxis) == Success(6.198)
    ensures StabilityParameter(Sofia.yAxis) == 71.7
    ensures CoilConstant(Sofia.yAxis).Success? && CoilConstant(Sofia.yAxis).value > 0.0
  {
  }
}

=== FILE: controller.dfy ===
/**
 * `VisaStation`: the station the measurement program talks to. It holds the
 * station configuration, one handle per configured axis, the two hold flags,
 * the logging level, the control mode and the ramping orchestrator, and it
 * answers the program's `set_quantity` / `get_quantity` calls.
 */
module Controller {
  import opened Wrappers
  import opened Errors
  import opened Text
  import opened DriverUtils
  import opened Config
  import opened InstrumentState
  import opened StationStatus
  import opened Instrument
  import opened MagnetRamping
  import opened StationRamping

  datatype VisaStation = VisaStation(
    config: Station,
    axes: Axes,
    flags: HoldFlags,
    logging: EnumLogging,
    mode: ControlMode,
    orch: Orchestrator)

  /** A station object before `open`: both hold flags set, DEBUG logging, passive, nothing to ramp. */
  function Init(config: Station): (vs: VisaStation)
    ensures vs.config == config && vs.axes.Present() == []
    ensures vs.flags.switchheaterOn && vs.flags.current
    ensures vs.logging == DEBUG && vs.mode == PASSIVE
    ensures vs.orch.done && vs.orch.queue == [] && vs.orch.current.None?
  {
    VisaStation(config, NoAxes, HoldFlags(true, true), DEBUG, PASSIVE, Idle)
  }

  /**
   * What holds of an opened station between calls: the orchestrator invariant, and
   * every axis handle belongs to a magnet that passed the construction check.
   */
  predicate Valid(vs: VisaStation) {
    && StationRamping.Valid(vs.orch, vs.axes)
    && (forall a: AxisName | vs.axes.Get(a).Some? :: Consistent(vs.axes.Get(a).value.magnet))
  }

  /** The magnets a station opens, with the axis each is opened as: X only for a three-axis station. */
  function Configured(config: Station): (r: seq<(AxisName, Magnet)>)
    ensures |r| == AxisValue(StationAxis(config))
  {
    (if config.xAxis.Some? then [(X, config.xAxis.value)] else []) + [(Y, config.yAxis), (Z, config.zAxis)]
  }

  /**
   * `open`: a handle for X (three-axis stations only), Y and Z, each with setpoint
   * and ramp rate zero; a magnet that fails the construction check raises.
   */
  function Open(vs: VisaStation): (r: Result<VisaStation, Fault>)
    ensures r.Success? <==> forall k | 0 <= k < |Configured(vs.config)| :: Consistent(Configured(vs.config)[k].1)
    ensures r.Failure? ==> r.error == ConfigurationError
    ensures r.Success? ==>
      && r.value == vs.(axes := r.value.axes)
      && (forall k | 0 <= k < |Configured(vs.config)| ::
            r.value.axes.Get(Configured(vs.config)[k].0) == Some(NewAxis(Configured(vs.config)[k].1)))
  {
    var c := vs.config;
    if c.xAxis.Some? && !Consistent(c.xAxis.value) then
      assert Configured(c)[0] == (X, c.xAxis.value);
      Failure(ConfigurationError)
    else if !Consistent(c.yAxis) || !Consistent(c.zAxis) then
      var off := if c.xAxis.Some? then 1 else 0;
      assert Configured(c)[off] == (Y, c.yAxis) && Configured(c)[off + 1] == (Z, c.zAxis);
      Failure(ConfigurationError)
    else
      var x := if c.xAxis.Some? then Some(NewAxis(c.xAxis.value)) else None;
      Success(vs.(axes := Axes(x, Some(NewAxis(c.yAxis)), Some(NewAxis(c.zAxis)))))
  }

  /** An opened station lists as many axes as its `Axis` value says, and is valid. */
  lemma OpenCount(config: Station)
    requires Open(Init(config)).Success?
    ensures |Open(Init(config)).value.axes.Present()| == AxisValue(StationAxis(config))
    ensures Valid(Open(Init(config)).value)
  {
    var vs := Open(Init(config)).value;
    var cs := Configured(config);
    if config.xAxis.Some? {
      assert cs[0] == (X, config.xAxis.value);
    }
  }

  // ---------------------------------------------------------------------
  // The aggregate status.

  /** All present axes report the same instrument state. */
  predicate Agree(axes: Axes, readings: Readings) {
    forall a: AxisName, b: AxisName | axes.Get(a).Some? && axes.Get(b).Some? :: readings.Of(a).state == readings.Of(b).state
  }

  /**
   * `get_labber_state`: MISALIGNED while ramping is unfinished or the axes disagree,
   * otherwise the status of the one state they share; a station without axes fails
   * its assertion.
   */
  function GetLabberState(vs: VisaStation, readings: Readings): (r: Result<LabberState, Fault>)
    ensures !vs.orch.done ==> r == Success(MISALIGNED)
    ensures vs.orch.done && !Agree(vs.axes, readings) ==> r == Success(MISALIGNED)
    ensures vs.orch.done && vs.axes.Present() == [] ==> r == Failure(AssertionError)
    ensures vs.orch.done && Agree(vs.axes, readings) ==>
      forall a: AxisName | vs.axes.Get(a).Some? :: r == Success(LabberOf(readings.Of(a).state))
    ensures r.Failure? ==> r.error == AssertionError
  {
    var p := vs.axes.Present();
    if !vs.orch.done then Success(MISALIGNED)
    else if p == [] then Failure(AssertionError)
    else if exists i | 0 <= i < |p| :: readings.Of(p[i]).state != readings.Of(p[0]).state then
      Success(MISALIGNED)
    else
      assert forall a: AxisName | vs.axes.Get(a).Some? :: readings.Of(a).state == readings.Of(p[0]).state by {
        forall a: AxisName | vs.axes.Get(a).Some?
          ensures readings.Of(a).state == readings.Of(p[0]).state
        {
          var i :| 0 <= i < |p| && p[i] == a;
        }
      }
      Success(LabberOf(readings.Of(p[0]).state))
  }

  /** The status is never MISALIGNED once ramping is finished and the axes agree, and IDLE reports zero current. */
  lemma LabberStateAgreed(vs: VisaStation, readings: Readings, a: AxisName)
    requires vs.orch.done && vs.axes.Get(a).Some? && Agree(vs.axes, readings)
    ensures GetLabberState(vs, readings).Success?
    ensures GetLabberState(vs, readings).value != MISALIGNED
    ensures GetLabberState(vs, readings).value == IDLE <==> readings.Of(a).state in {ZEROING_CURRENT, AT_ZERO_CURRENT}
  {
  }

  // ---------------------------------------------------------------------
  // `tick`: repeat station ticks while the state text keeps changing.

  /** What the supplies reply, and the clock, during one station tick. */
  datatype Sample = Sample(readings: Readings, now: real)

  /** One station tick, with `env(k)` as its sample. */
  function TickOnce(vs: VisaStation, sample: Sample): (r: (VisaStation, Stepped))
    requires Valid(vs)
    ensures Valid(r.0)
    ensures r.1 == StationRamping.Tick(vs.orch, vs.axes, sample.readings, vs.flags, sample.now)
    ensures r.0 == vs.(orch := r.1.orch, axes := r.1.axes)
  {
    var st := StationRamping.Tick(vs.orch, vs.axes, sample.readings, vs.flags, sample.now);
    forall a: AxisName | st.axes.Get(a).Some?
      ensures Consistent(st.axes.Get(a).value.magnet)
    {
      TickKeepsMagnets(vs, sample, a);
    }
    (vs.(orch := st.orch, axes := st.axes), st)
  }

  lemma TickKeepsMagnets(vs: VisaStation, sample: Sample, a: AxisName)
    requires Valid(vs)
    ensures var st := StationRamping.Tick(vs.orch, vs.axes, sample.readings, vs.flags, sample.now);
      st.axes.Get(a).Some? ==> vs.axes.Get(a).Some? && st.axes.Get(a).value.magnet == vs.axes.Get(a).value.magnet
  {
  }

  /** The station after `n` ticks starting with sample `env(k)`; a tick that raises ends the run. */
  function Iterate(vs: VisaStation, env: nat -> Sample, k: nat, n: nat): (r: VisaStation)
    requires Valid(vs)
    ensures Valid(r)
    decreases n
  {
    if n == 0 then vs
    else
      var (next, st) := TickOnce(vs, env(k));
      if st.fault.Some? then next else Iterate(next, env, k + 1, n - 1)
  }

  /** Whether a run of `n` ticks raised. */
  function RunFault(vs: VisaStation, env: nat -> Sample, k: nat, n: nat): (r: Option<Fault>)
    requires Valid(vs)
    decreases n
  {
    if n == 0 then None
    else
      var (next, st) := TickOnce(vs, env(k));
      if st.fault.Some? then st.fault else RunFault(next, env, k + 1, n - 1)
  }

  /** The commands written during a run of `n` ticks, in order, up to and including a tick that raises. */
  function RunSent(vs: VisaStation, env: nat -> Sample, k: nat, n: nat): (r: seq<Sent>)
    requires Valid(vs)
    decreases n
  {
    if n == 0 then []
    else
      var (next, st) := TickOnce(vs, env(k));
      if st.fault.Some? then st.sent else st.sent + RunSent(next, env, k + 1, n - 1)
  }

  datatype Drained = Drained(station: VisaStation, sent: seq<Sent>, fault: Option<Fault>, ticks: nat)

  /**
   * `VisaStation.tick`: station ticks until one leaves the state text as it was,
   * or one raises. The loop always ends: a tick that changes the text makes
   * progress in the queue or in the active machine's phases.
   */
  function Drain(vs: VisaStation, env: nat -> Sample, k: nat): (r: Drained)
    requires Valid(vs)
    ensures Valid(r.station)
    ensures 1 <= r.ticks <= Measure(vs.orch) + 1
    ensures r.station == Iterate(vs, env, k, r.ticks) && r.fault == RunFault(vs, env, k, r.ticks)
    ensures r.sent == RunSent(vs, env, k, r.ticks)
    ensures TextChangesUntil(vs, env, k, r.ticks)
    decreases Measure(vs.orch)
  {
    var (next, st) := TickOnce(vs, env(k));
    if st.fault.Some? || StateText(next.orch) == StateText(vs.orch) then
      DrainLast(vs, env, k);
      Drained(next, st.sent, st.fault, 1)
    else
      TextChangeMeansProgress(vs.orch, vs.axes, env(k).readings, vs.flags, env(k).now);
      var rest := Drain(next, env, k + 1);
      DrainExtend(vs, env, k, rest.ticks);
      Drained(rest.station, st.sent + rest.sent, rest.fault, rest.ticks + 1)
  }

  /** The texts seen along a run of `n` ticks change at every tick but the last, which leaves it alone unless it raised. */
  ghost predicate TextChangesUntil(vs: VisaStation, env: nat -> Sample, k: nat, n: nat)
    requires Valid(vs) && n >= 1
  {
    && (forall j | 0 <= j < n - 1 ::
          StateText(Iterate(vs, env, k, j + 1).orch) != StateText(Iterate(vs, env, k, j).orch))
    && (RunFault(vs, env, k, n).None? ==>
          StateText(Iterate(vs, env, k, n).orch) == StateText(Iterate(vs, env, k, n - 1).orch))
  }

  /** A first tick that changes the text and does not raise, followed by a run, is a run one tick longer. */
  lemma DrainExtend(vs: VisaStation, env: nat -> Sample, k: nat, n: nat)
    requires Valid(vs) && n >= 1
    requires TickOnce(vs, env(k)).1.fault.None?
    requires StateText(TickOnce(vs, env(k)).0.orch) != StateText(vs.orch)
    requires TextChangesUntil(TickOnce(vs, env(k)).0, env, k + 1, n)
    ensures Iterate(vs, env, k, n + 1) == Iterate(TickOnce(vs, env(k)).0, env, k + 1, n)
    ensures RunFault(vs, env, k, n + 1) == RunFault(TickOnce(vs, env(k)).0, env, k + 1, n)
    ensures RunSent(vs, env, k, n + 1) == TickOnce(vs, env(k)).1.sent + RunSent(TickOnce(vs, env(k)).0, env, k + 1, n)
    ensures TextChangesUntil(vs, env, k, n + 1)
  {
    var next := TickOnce(vs, env(k)).0;
    IterateFirst(vs, env, k, n);
    forall j | 0 <= j < n
      ensures StateText(Iterate(vs, env, k, j + 1).orch) != StateText(Iterate(vs, env, k, j).orch)
    {
      if j > 0 {
        assert StateText(Iterate(next, env, k + 1, j).orch) != StateText(Iterate(next, env, k + 1, j - 1).orch);
      }
    }
  }

  /** A run of one tick ends at that tick, raising what it raised. */
  lemma DrainLast(vs: VisaStation, env: nat -> Sample, k: nat)
    requires Valid(vs)
    ensures Iterate(vs, env, k, 1) == TickOnce(vs, env(k)).0
    ensures RunFault(vs, env, k, 1) == TickOnce(vs, env(k)).1.fault
    ensures RunSent(vs, env, k, 1) == TickOnce(vs, env(k)).1.sent
    ensures TextChangesUntil(vs, env, k, 1) <==>
      (TickOnce(vs, env(k)).1.fault.None? ==> StateText(TickOnce(vs, env(k)).0.orch) == StateText(vs.orch))
  {
    assert Iterate(vs, env, k, 0) == vs;
  }

  /** A run that does not raise in its first tick is that tick followed by the rest of the run. */
  lemma IterateFirst(vs: VisaStation, env: nat -> Sample, k: nat, n: nat)
    requires Valid(vs) && TickOnce(vs, env(k)).1.fault.None?
    ensures forall j | 1 <= j <= n + 1 :: Iterate(vs, env, k, j) == Iterate(TickOnce(vs, env(k)).0, env, k + 1, j - 1)
    ensures RunFault(vs, env, k, n + 1) == RunFault(TickOnce(vs, env(k)).0, env, k + 1, n)
    ensures Iterate(vs, env, k, 0) == vs && Iterate(vs, env, k, 1) == TickOnce(vs, env(k)).0
  {
  }

  // ---------------------------------------------------------------------
  // Quantities.

  /** The quantities a station answers, with the axis they concern. */
  datatype Quantity =
    | ControlSetpoint(axis: AxisName)
    | ControlRampRate(axis: AxisName)
    | StatusMagnetState(axis: AxisName)
    | StatusFieldActual(axis: AxisName)
    | ControlLogging
    | ControlMode
    | StatusSwitchheaterStatus
    | ControlHoldSwitchheaterOn
    | ControlHoldCurrent
    | ControlLabberState
    | ConfigName
    | ConfigAxis
    | Unlisted(name: string)

  /** A value exchanged with the measurement program. */
  datatype Value = VReal(r: real) | VText(s: string) | VBool(b: bool) | VInt(i: int) | VNone

  /** The `{"True": True, "False": False}` lookup of the hold flags. */
  function FlagOf(v: Value): (r: Result<bool, Fault>)
    ensures r.Success? <==> v == VText("True") || v == VText("False")
    ensures r.Success? ==> (r.value <==> v == VText("True"))
    ensures r.Failure? ==> r.error == KeyError
  {
    if v == VText("True") then Success(true)
    else if v == VText("False") then Success(false)
    else Failure(KeyError)
  }

  /** The quantities `set_quantity` does not know: it answers 43. */
  predicate NotSettable(q: Quantity) {
    q.StatusMagnetState? || q.StatusFieldActual? || q.ConfigName? || q.ConfigAxis? || q.Unlisted?
  }

  /** The answer to a labber-state request: the station's status, by name; MISALIGNED while ramping is unfinished. */
  function LabberAnswer(vs: VisaStation, readings: Readings): (r: Result<(VisaStation, Value), Fault>)
    ensures !vs.orch.done ==> r == Success((vs, VText("MISALIGNED")))
    ensures r.Success? <==> GetLabberState(vs, readings).Success?
    ensures r.Success? ==> r.value == (vs, VText(LabberName(GetLabberState(vs, readings).value)))
    ensures r.Failure? ==> r.error == GetLabberState(vs, readings).error
  {
    match GetLabberState(vs, readings)
    case Failure(e) => Failure(e)
    case Success(l) => Success((vs, VText(LabberName(l))))
  }

  /**
   * A request for a labber state: RAMPING starts ramping, any other value changes
   * nothing; the reply is the status afterwards, which right after a start is
   * always MISALIGNED.
   */
  function RequestLabberState(vs: VisaStation, v: Value, readings: Readings): (r: Result<(VisaStation, Value), Fault>)
    ensures v == VText("RAMPING") ==>
      r == Success((vs.(orch := StartRamping(vs.orch, vs.axes, readings)), VText("MISALIGNED")))
    ensures v != VText("RAMPING") ==> r == LabberAnswer(vs, readings)
  {
    var started := if v == VText("RAMPING") then vs.(orch := StartRamping(vs.orch, vs.axes, readings)) else vs;
    LabberAnswer(started, readings)
  }

  /**
   * Setting `ControlLogging`: `EnumLogging.get_exception` of the value. A level's name
   * is stored and echoed; any other text raises the descriptive exception and changes nothing.
   */
  function SetLogging(vs: VisaStation, v: Value): (r: Result<(VisaStation, Value), Fault>)
    ensures !v.VText? ==> r == Failure(AssertionError)
    ensures v.VText? ==>
      && (r.Success? <==> exists l: EnumLogging :: LoggingName(l) == v.s)
      && (r.Success? ==> LoggingName(r.value.0.logging) == v.s && r.value == (vs.(logging := r.value.0.logging), v))
      && (r.Failure? ==> r.error == Raised(UnknownMessage(LoggingClass, v.s)))
  {
    if !v.VText? then Failure(AssertionError)
    else
      LoggingNamed(v.s);
      match GetException(LoggingClass, v.s)
      case Failure(e) => Failure(e)
      case Success(l) => Success((vs.(logging := l), v))
  }

  /**
   * Setting `ControlMode`: `ControlMode.get_exception` of the value. A mode's name is
   * stored and echoed; any other text raises the descriptive exception and changes nothing.
   */
  function SetMode(vs: VisaStation, v: Value): (r: Result<(VisaStation, Value), Fault>)
    ensures !v.VText? ==> r == Failure(AssertionError)
    ensures v.VText? ==>
      && (r.Success? <==> exists m: ControlMode :: ModeName(m) == v.s)
      && (r.Success? ==> ModeName(r.value.0.mode) == v.s && r.value == (vs.(mode := r.value.0.mode), v))
      && (r.Failure? ==> r.error == Raised(UnknownMessage(ModeClass, v.s)))
  {
    if !v.VText? then Failure(AssertionError)
    else
      match GetException(ModeClass, v.s)
      case Failure(e) => Failure(e)
      case Success(m) => Success((vs.(mode := m), v))
  }

  /**
   * `set_quantity`: the new station and the value returned to the program.
   * `readings` are the replies to the queries a labber-state request makes.
   */
  function SetQuantity(vs: VisaStation, q: Quantity, v: Value, readings: Readings): (r: Result<(VisaStation, Value), Fault>)
    ensures r.Failure? ==> r.error == AssertionError || r.error == KeyError || r.error.Raised?
    ensures NotSettable(q) ==> r == Success((vs, VInt(43)))
    ensures q.StatusSwitchheaterStatus? ==> r == Success((vs, v))
    ensures q.ControlLabberState? ==> r == RequestLabberState(vs, v, readings)
    ensures q.ControlLogging? ==> r == SetLogging(vs, v)
    ensures q.ControlMode? ==> r == SetMode(vs, v)
    ensures r.Success? ==> r.value.0.config == vs.config && r.value.0.axes.Present() == vs.axes.Present()
  {
    match q
    case ControlSetpoint(a) =>
      if !v.VReal? then Failure(AssertionError)
      else if vs.axes.Get(a).None? then Success((vs, v))
      else Success((vs.(axes := vs.axes.With(a, vs.axes.Get(a).value.(setpoint := v.r))), v))
    case ControlRampRate(a) =>
      if !v.VReal? then Failure(AssertionError)
      else if vs.axes.Get(a).None? then Success((vs, v))
      else Success((vs.(axes := vs.axes.With(a, vs.axes.Get(a).value.(rampRate := v.r))), v))
    case ControlLogging => SetLogging(vs, v)
    case ControlMode => SetMode(vs, v)
    case StatusSwitchheaterStatus =>
      Success((vs, v))
    case ControlHoldSwitchheaterOn =>
      (match FlagOf(v)
       case Failure(e) => Failure(e)
       case Success(b) => Success((vs.(flags := vs.flags.(switchheaterOn := b)), v)))
    case ControlHoldCurrent =>
      (match FlagOf(v)
       case Failure(e) => Failure(e)
       case Success(b) => Success((vs.(flags := vs.flags.(current := b)), v)))
    case ControlLabberState =>
      RequestLabberState(vs, v, readings)
    case _ =>
      Success((vs, VInt(43)))
  }

  /** `get_quantity`; `readings` are the replies to the queries the request makes. */
  function GetQuantity(vs: VisaStation, q: Quantity, readings: Readings): (r: Result<Value, Fault>)
    ensures q.Unlisted? ==> r == Success(VNone)
    ensures (q.ControlSetpoint? || q.ControlRampRate? || q.StatusMagnetState? || q.StatusFieldActual?) ==>
      (r.Failure? <==> vs.axes.Get(q.axis).None?) && (r.Failure? ==> r.error == AttributeError)
    ensures q.StatusMagnetState? && vs.axes.Get(q.axis).Some? ==> r == Success(VText(StateName(readings.Of(q.axis).state)))
    ensures q.StatusFieldActual? && vs.axes.Get(q.axis).Some? ==> r == Success(VReal(readings.Of(q.axis).field))
    ensures q.ConfigName? ==> r == Success(VText(vs.config.name))
    ensures q.ControlLogging? ==> r == Success(VText(LoggingName(vs.logging)))
    ensures q.ControlMode? ==> r == Success(VInt(ModeNumber(vs.mode)))
    ensures q.ControlHoldSwitchheaterOn? ==> r == Success(VBool(vs.flags.switchheaterOn))
    ensures q.ControlHoldCurrent? ==> r == Success(VBool(vs.flags.current))
    ensures q.ConfigAxis? ==> r == Success(VText(AxisText(StationAxis(vs.config))))
    ensures q.StatusSwitchheaterStatus? ==>
      && (vs.axes.z.None? ==> r == Success(VInt(0)))
      && (vs.axes.z.Some? && !vs.axes.z.value.magnet.hasSwitchheater ==> r == Failure(AssertionError))
      && (vs.axes.z.Some? && vs.axes.z.value.magnet.hasSwitchheater ==> r == Success(VInt(readings.z.switchheater)))
    ensures q.ControlLabberState? ==>
      && (r.Success? <==> GetLabberState(vs, readings).Success?)
      && (r.Success? ==> r.value == VText(LabberName(GetLabberState(vs, readings).value)))
      && (r.Failure? ==> r.error == GetLabberState(vs, readings).error)
  {
    match q
    case ConfigName => Success(VText(vs.config.name))
    case ConfigAxis => Success(VText(AxisText(StationAxis(vs.config))))
    case ControlLogging => Success(VText(LoggingName(vs.logging)))
    case StatusSwitchheaterStatus =>
      if vs.axes.z.None? then Success(VInt(0))
      else if !vs.axes.z.value.magnet.hasSwitchheater then Failure(AssertionError)
      else Success(VInt(readings.z.switchheater))
    case ControlHoldSwitchheaterOn => Success(VBool(vs.flags.switchheaterOn))
    case ControlHoldCurrent => Success(VBool(vs.flags.current))
    case ControlLabberState =>
      (match GetLabberState(vs, readings)
       case Failure(e) => Failure(e)
       case Success(l) => Success(VText(LabberName(l))))
    case ControlMode => Success(VInt(ModeNumber(vs.mode)))
    case ControlSetpoint(a) =>
      if vs.axes.Get(a).None? then Failure(AttributeError) else Success(VReal(vs.axes.Get(a).value.setpoint))
    case ControlRampRate(a) =>
      if vs.axes.Get(a).None? then Failure(AttributeError) else Success(VReal(vs.axes.Get(a).value.rampRate))
    case StatusMagnetState(a) =>
      if vs.axes.Get(a).None? then Failure(AttributeError) else Success(VText(StateName(readings.Of(a).state)))
    case StatusFieldActual(a) =>
      if vs.axes.Get(a).None? then Failure(AttributeError) else Success(VReal(readings.Of(a).field))
    case Unlisted(_) => Success(VNone)
  }

  // ---------------------------------------------------------------------
  // Set and get together.

  /**
   * Setting the field setpoint of a present axis stores exactly that value, `get`
   * returns it, and nothing else changes.
   */
  lemma SetpointRoundTrip(vs: VisaStation, a: AxisName, x: real, readings: Readings)
    requires vs.axes.Get(a).Some?
    ensures var r := SetQuantity(vs, ControlSetpoint(a), VReal(x), readings);
      && r.Success? && r.value.1 == VReal(x)
      && GetQuantity(r.value.0, ControlSetpoint(a), readings) == Success(VReal(x))
      && r.value.0.axes.Get(a) == Some(vs.axes.Get(a).value.(setpoint := x))
      && (forall b: AxisName | b != a :: r.value.0.axes.Get(b) == vs.axes.Get(b))
      && r.value.0 == vs.(axes := r.value.0.axes)
  {
  }

  /** The same for the ramp rate, which is stored as given: no limit is applied. */
  lemma RampRateRoundTrip(vs: VisaStation, a: AxisName, x: real, readings: Readings)
    requires vs.axes.Get(a).Some?
    ensures var r := SetQuantity(vs, ControlRampRate(a), VReal(x), readings);
      && r.Success? && r.value.1 == VReal(x)
      && GetQuantity(r.value.0, ControlRampRate(a), readings) == Success(VReal(x))
      && r.value.0.axes.Get(a) == Some(vs.axes.Get(a).value.(rampRate := x))
      && (forall b: AxisName | b != a :: r.value.0.axes.Get(b) == vs.axes.Get(b))
      && r.value.0 == vs.(axes := r.value.0.axes)
  {
  }

  /** Setting a ramp rate twice leaves the station as setting it once. */
  lemma RampRateIdempotent(vs: VisaStation, a: AxisName, x: real, readings: Readings)
    ensures var r := SetQuantity(vs, ControlRampRate(a), VReal(x), readings);
      r.Success? && SetQuantity(r.value.0, ControlRampRate(a), VReal(x), readings) == r
  {
  }

  /** Only reals are accepted for a setpoint or a ramp rate, even for an absent axis. */
  lemma SetpointNeedsReal(vs: VisaStation, q: Quantity, v: Value, readings: Readings)
    requires q.ControlSetpoint? || q.ControlRampRate?
    ensures SetQuantity(vs, q, v, readings).Failure? <==> !v.VReal?
    ensures vs.axes.Get(q.axis).None? && v.VReal? ==> SetQuantity(vs, q, v, readings) == Success((vs, v))
  {
  }

  /** A hold flag accepts exactly the texts "True" and "False", and `get` reads back the flag set. */
  lemma HoldFlagRoundTrip(vs: VisaStation, v: Value, readings: Readings)
    ensures var r := SetQuantity(vs, ControlHoldCurrent, v, readings);
      && (r.Success? <==> v == VText("True") || v == VText("False"))
      && (r.Success? ==>
            GetQuantity(r.value.0, ControlHoldCurrent, readings) == Success(VBool(v == VText("True")))
            && r.value.0 == vs.(flags := vs.flags.(current := v == VText("True"))))
    ensures var r := SetQuantity(vs, ControlHoldSwitchheaterOn, v, readings);
      && (r.Success? <==> v == VText("True") || v == VText("False"))
      && (r.Success? ==>
            GetQuantity(r.value.0, ControlHoldSwitchheaterOn, readings) == Success(VBool(v == VText("True")))
            && r.value.0 == vs.(flags := vs.flags.(switchheaterOn := v == VText("True"))))
  {
  }

  /** A logging level set by name is read back by name. */
  lemma LoggingRoundTrip(vs: VisaStation, l: EnumLogging, readings: Readings)
    ensures var r := SetQuantity(vs, ControlLogging, VText(LoggingName(l)), readings);
      && r.Success? && r.value.0 == vs.(logging := l)
      && GetQuantity(r.value.0, ControlLogging, readings) == Success(VText(LoggingName(l)))
  {
    LoggingWellFormed();
    GetExceptionName(LoggingClass, l);
  }

  /** A control mode set by name is read back as its number. */
  lemma ModeRoundTrip(vs: VisaStation, m: ControlMode, readings: Readings)
    ensures var r := SetQuantity(vs, ControlMode, VText(ModeName(m)), readings);
      && r.Success? && r.value.0 == vs.(mode := m)
      && GetQuantity(r.value.0, ControlMode, readings) == Success(VInt(ModeNumber(m)))
  {
    ModeClassWellFormed();
    GetExceptionName(ModeClass, m);
  }

  /** Requesting the labber state RAMPING starts ramping, and the answer is then always MISALIGNED. */
  lemma LabberStateRequest(vs: VisaStation, readings: Readings)
    ensures SetQuantity(vs, ControlLabberState, VText("RAMPING"), readings)
      == Success((vs.(orch := StartRamping(vs.orch, vs.axes, readings)), VText("MISALIGNED")))
  {
  }

  /** Requesting any other labber state changes nothing and reports the current status. */
  lemma LabberStateOtherRequest(vs: VisaStation, v: Value, readings: Readings)
    requires v != VText("RAMPING")
    ensures match GetLabberState(vs, readings)
      case Success(l) => SetQuantity(vs, ControlLabberState, v, readings) == Success((vs, VText(LabberName(l))))
      case Failure(e) => SetQuantity(vs, ControlLabberState, v, readings) == Failure(e)
  {
  }

  /** Setting keeps an opened station valid, so it can be ticked afterwards. */
  lemma SetKeepsValid(vs: VisaStation, q: Quantity, v: Value, readings: Readings)
    requires Valid(vs)
    ensures SetQuantity(vs, q, v, readings).Success? ==> Valid(SetQuantity(vs, q, v, readings).value.0)
  {
    var r := SetQuantity(vs, q, v, readings);
    if r.Success? {
      match q
      case ControlLabberState =>
        if v == VText("RAMPING") {
          StartRampingKeepsValid(vs.orch, vs.axes, readings);
        }
      case ControlSetpoint(a) =>
        if v.VReal? && vs.axes.Get(a).Some? {
          AxisUpdateKeepsValid(vs, a, vs.axes.Get(a).value.(setpoint := v.r));
        }
      case ControlRampRate(a) =>
        if v.VReal? && vs.axes.Get(a).Some? {
          AxisUpdateKeepsValid(vs, a, vs.axes.Get(a).value.(rampRate := v.r));
        }
      case _ =>
    }
  }

  /** Replacing an axis handle by one with the same magnet keeps the station valid. */
  lemma AxisUpdateKeepsValid(vs: VisaStation, a: AxisName, rt: AxisRuntime)
    requires Valid(vs) && vs.axes.Get(a).Some? && rt.magnet == vs.axes.Get(a).value.magnet
    ensures Valid(vs.(axes := vs.axes.With(a, rt)))
  {
    var axes := vs.axes.With(a, rt);
    assert forall b: AxisName :: axes.Get(b).Some? == vs.axes.Get(b).Some?;
    assert forall b: AxisName | axes.Get(b).Some? :: axes.Get(b).value.magnet == vs.axes.Get(b).value.magnet;
  }

}

=== FILE: dataframes.dfy ===
/**
 * The dataframes of the log parser: each collects, from the matched log lines
 * carrying its tag, a time stamp and a value per accepted line, and for some
 * kinds a label. `DataframeBase` reads the aggregate status and the ramping
 * duration; `DataFrameMagnetField`, `DataFrameMagnetState` and
 * `DataFrameSetpoint` read one magnet's field, state and field setpoint.
 */
module Dataframes {
  import opened Wrappers
  import opened Errors
  import opened Text
  import opened DriverUtils
  import opened StationStatus
  import opened LogParser

  // ---------------------------------------------------------------------
  // `datetime.strptime(stamp, "%Y-%m-%d %H:%M:%S,%f")` on a matched stamp.

  datatype DateTime = DateTime(year: int, month: int, day: int, hour: int, minute: int, second: int, microsecond: int)

  predicate LeapYear(y: int) {
    y % 4 == 0 && (y % 100 != 0 || y % 400 == 0)
  }

  function DaysIn(y: int, m: int): int
    requires 1 <= m <= 12
  {
    if m == 2 then (if LeapYear(y) then 29 else 28)
    else if m == 4 || m == 6 || m == 9 || m == 11 then 30
    else 31
  }

  /** The field ranges `datetime` accepts. */
  predicate ValidDateTime(d: DateTime) {
    && 1 <= d.year <= 9999
    && 1 <= d.month <= 12
    && 1 <= d.day <= DaysIn(d.year, d.month)
    && 0 <= d.hour <= 23
    && 0 <= d.minute <= 59
    && 0 <= d.second <= 59
    && 0 <= d.microsecond <= 999_999
  }

  /** The positions of the seven digit fields of a stamp. */
  predicate FieldSpan(i: nat, j: nat) {
    || (i == 0 && j == 4) || (i == 5 && j == 7) || (i == 8 && j == 10) || (i == 11 && j == 13)
    || (i == 14 && j == 16) || (i == 17 && j == 19) || (i == 20 && j == 23)
  }

  /** The decimal value of the digits `s[i..j]` of a stamp. */
  function StampField(s: string, i: nat, j: nat): nat
    requires StampShape(s)
    requires FieldSpan(i, j)
  {
    assert forall k | 0 <= k < j - i :: s[i..j][k] == s[i + k];
    DecimalValue(s[i..j])
  }

  /** The fields written in a stamp; three fraction digits are milliseconds. */
  function StampFields(s: string): DateTime
    requires StampShape(s)
  {
    DateTime(StampField(s, 0, 4), StampField(s, 5, 7), StampField(s, 8, 10),
             StampField(s, 11, 13), StampField(s, 14, 16), StampField(s, 17, 19),
             StampField(s, 20, 23) * 1000)
  }

  /** `strptime`: the stamp's fields, or `ValueError` when they do not form a date and time. */
  function ParseStamp(s: string): (r: Result<DateTime, Fault>)
    ensures r.Success? <==> StampShape(s) && ValidDateTime(StampFields(s))
    ensures r.Success? ==> r.value.microsecond % 1000 == 0
    ensures r.Failure? ==> r.error == ValueError
  {
    if StampShape(s) && ValidDateTime(StampFields(s)) then Success(StampFields(s)) else Failure(ValueError)
  }

  function Pow10(w: nat): nat {
    if w == 0 then 1 else 10 * Pow10(w - 1)
  }

  /** `n` in `w` decimal digits, zero-padded on the left. */
  function Pad(n: nat, w: nat): (r: string)
    ensures |r| == w && AllDigits(r)
  {
    if w == 0 then "" else Pad(n / 10, w - 1) + [DigitChar(n % 10)]
  }

  lemma {:induction false} PadValue(n: nat, w: nat)
    requires n < Pow10(w)
    ensures DecimalValue(Pad(n, w)) == n
  {
    if w > 0 {
      PadValue(n / 10, w - 1);
      var r := Pad(n, w);
      assert r[..|r| - 1] == Pad(n / 10, w - 1);
    }
  }

  /** The stamp the logger writes for a date and time: `%Y-%m-%d %H:%M:%S,` and milliseconds. */
  function FormatStamp(d: DateTime): (r: string)
    requires ValidDateTime(d)
  {
    Pad(d.year, 4) + "-" + Pad(d.month, 2) + "-" + Pad(d.day, 2) + " "
    + Pad(d.hour, 2) + ":" + Pad(d.minute, 2) + ":" + Pad(d.second, 2) + ","
    + Pad(d.microsecond / 1000, 3)
  }

  /** A written stamp has the shape the log-line pattern asks for, and holds each field's digits in its place. */
  lemma FormatStampShape(d: DateTime)
    requires ValidDateTime(d)
    ensures StampShape(FormatStamp(d))
    ensures Written(FormatStamp(d), d)
  {
    var s := FormatStamp(d);
    assert s[0..4] == Pad(d.year, 4);
    assert s[5..7] == Pad(d.month, 2);
    assert s[8..10] == Pad(d.day, 2);
    assert s[11..13] == Pad(d.hour, 2);
    assert s[14..16] == Pad(d.minute, 2);
    assert s[17..19] == Pad(d.second, 2);
    assert s[20..23] == Pad(d.microsecond / 1000, 3);
    forall k | 0 <= k < 23 && k !in {4, 7, 10, 13, 16, 19}
      ensures IsDigit(s[k])
    {
      if k < 4 { assert s[k] == s[0..4][k]; }
      else if k < 7 { assert s[k] == s[5..7][k - 5]; }
      else if k < 10 { assert s[k] == s[8..10][k - 8]; }
      else if k < 13 { assert s[k] == s[11..13][k - 11]; }
      else if k < 16 { assert s[k] == s[14..16][k - 14]; }
      else if k < 19 { assert s[k] == s[17..19][k - 17]; }
      else { assert s[k] == s[20..23][k - 20]; }
    }
  }

  /** A field written with `Pad` is read back as its value. */
  lemma FieldValue(s: string, i: nat, j: nat, n: nat)
    requires StampShape(s) && FieldSpan(i, j)
    requires n < Pow10(j - i) && s[i..j] == Pad(n, j - i)
    ensures StampField(s, i, j) == n
  {
    PadValue(n, j - i);
  }

  /** The stamp `s` holds the padded digits of each field of `d`. */
  predicate Written(s: string, d: DateTime)
    requires ValidDateTime(d) && |s| == 23
  {
    && s[0..4] == Pad(d.year, 4) && s[5..7] == Pad(d.month, 2) && s[8..10] == Pad(d.day, 2)
    && s[11..13] == Pad(d.hour, 2) && s[14..16] == Pad(d.minute, 2) && s[17..19] == Pad(d.second, 2)
    && s[20..23] == Pad(d.microsecond / 1000, 3)
  }

  /** The fields read from a stamp holding the padded digits of a date and time are its fields. */
  lemma WrittenFields(s: string, d: DateTime)
    requires ValidDateTime(d) && d.microsecond % 1000 == 0 && StampShape(s) && Written(s, d)
    ensures StampFields(s) == d
  {
    assert Pow10(2) == 100 && Pow10(3) == 1000 && Pow10(4) == 10000;
    FieldValue(s, 0, 4, d.year);
    FieldValue(s, 5, 7, d.month);
    FieldValue(s, 8, 10, d.day);
    FieldValue(s, 11, 13, d.hour);
    FieldValue(s, 14, 16, d.minute);
    FieldValue(s, 17, 19, d.second);
    FieldValue(s, 20, 23, d.microsecond / 1000);
  }

  /** Round trip: a written stamp is read back as the same date and time, to the millisecond. */
  lemma ParseFormatStamp(d: DateTime)
    requires ValidDateTime(d) && d.microsecond % 1000 == 0
    ensures ParseStamp(FormatStamp(d)) == Success(d)
  {
    FormatStampShape(d);
    WrittenFields(FormatStamp(d), d);
  }

  // ---------------------------------------------------------------------
  // Frames.

  /** The logger tags the frames select on. */
  datatype LoggerTag = LABBER_STATE | RAMPING_DURATION_S | MAGNET_FIELD | MAGNET_STATE | LABBER_SET

  function TagName(t: LoggerTag): string {
    match t
    case LABBER_STATE => "LABBER_STATE"
    case RAMPING_DURATION_S => "RAMPING_DURATION_S"
    case MAGNET_FIELD => "MAGNET_FIELD"
    case MAGNET_STATE => "MAGNET_STATE"
    case LABBER_SET => "LABBER_SET"
  }

  /** Which `pick` a frame uses; the magnet defaults to `None`, which no token equals. */
  datatype Kind =
    | Base
    | MagnetField(magnet: Option<string>)
    | MagnetState(magnet: Option<string>)
    | Setpoint(magnet: Option<string>)

  datatype Frame = Frame(name: string, tag: LoggerTag, kind: Kind,
                         timeStamps: seq<DateTime>, values: seq<real>, labels: seq<string>)

  /** A fresh frame: its three lists are empty. */
  function NewFrame(name: string, tag: LoggerTag, kind: Kind): (f: Frame)
    ensures f.timeStamps == [] && f.values == [] && f.labels == []
    ensures f.name == name && f.tag == tag && f.kind == kind
  {
    Frame(name, tag, kind, [], [], [])
  }

  /** One time stamp per value. */
  predicate Balanced(f: Frame) {
    |f.timeStamps| == |f.values|
  }

  /** `f` with one more time stamp and value, and the label `note` if there is one. */
  function Record(f: Frame, t: DateTime, v: real, note: Option<string>): (g: Frame)
    ensures Balanced(f) ==> Balanced(g)
    ensures |g.timeStamps| == |f.timeStamps| + 1 && f.timeStamps <= g.timeStamps
    ensures |g.values| == |f.values| + 1 && f.values <= g.values
  {
    f.(timeStamps := f.timeStamps + [t], values := f.values + [v],
       labels := if note.Some? then f.labels + [note.value] else f.labels)
  }

  /** `g` is `f`, or `f` with one valid time stamp and its value (and perhaps a label) appended. */
  ghost predicate Grows(f: Frame, g: Frame) {
    g == f || exists t, v, l :: ValidDateTime(t) && g == Record(f, t, v, l)
  }

  lemma GrowsBalanced(f: Frame, g: Frame)
    requires Grows(f, g) && Balanced(f)
    ensures Balanced(g)
    ensures g.name == f.name && g.tag == f.tag && g.kind == f.kind
  {
  }

  const NeedsOverride: string := "Needs to be overwritten"

  /** `[0-9.e+-0-9]`: the range `+-0` adds `+ , - . / 0`. */
  predicate DurationChar(c: char) {
    IsDigit(c) || c in ".e+,-/"
  }

  /** Length of the longest prefix of `s` made of duration characters. */
  function DurationRun(s: string): (n: nat)
    ensures n <= |s|
    ensures forall k | 0 <= k < n :: DurationChar(s[k])
    ensures n < |s| ==> !DurationChar(s[n])
  {
    if s != [] && DurationChar(s[0]) then 1 + DurationRun(s[1..]) else 0
  }

  /** The aggregate status named `msg`, as `LabberState[msg]` looks it up. */
  function StatusNamed(msg: string): (r: Option<LabberState>)
    ensures r.Some? <==> exists l :: LabberName(l) == msg
    ensures r.Some? ==> LabberName(r.value) == msg
  {
    LabberClassWellFormed();
    FindByName(LabberClass.members, LabberName, msg)
  }

  /**
   * `DataframeBase.pick`, corrected: the aggregate status (value its number, label
   * its name) or the leading duration of the message, with every decode done before
   * anything is appended. Any other tag raises.
   */
  function PickBase(f: Frame, stamp: string, tag: string, msg: string, parseFloat: string -> Option<real>): (r: Result<Frame, Fault>)
    ensures tag != TagName(LABBER_STATE) && tag != TagName(RAMPING_DURATION_S) ==> r == Failure(Raised(NeedsOverride))
    ensures r.Success? ==> Grows(f, r.value) && r.value != f
    ensures tag == TagName(LABBER_STATE) ==>
      && (r.Success? <==> ParseStamp(stamp).Success? && exists l :: LabberName(l) == msg)
      && (ParseStamp(stamp).Success? && r.Failure? ==> r.error == KeyError)
      && (r.Success? ==> exists l :: LabberName(l) == msg && r.value.values == f.values + [LabberNumber(l) as real])
      && (r.Success? ==> r.value.labels == f.labels + [msg])
      && (r.Success? ==>
            && ParseStamp(stamp).Success? && StatusNamed(msg).Some?
            && r.value == Record(f, ParseStamp(stamp).value, LabberNumber(StatusNamed(msg).value) as real, Some(msg)))
    ensures tag == TagName(RAMPING_DURATION_S) ==>
      && (ParseStamp(stamp).Success? && DurationRun(msg) == 0 ==> r == Failure(AttributeError))
      && (r.Success? ==>
            && r.value.labels == f.labels
            && |r.value.values| == |f.values| + 1
            && parseFloat(msg[..DurationRun(msg)]) == Some(r.value.values[|f.values|]))
    ensures tag == TagName(RAMPING_DURATION_S) ==>
      && (ParseStamp(stamp).Failure? ==> r == Failure(ValueError))
      && (ParseStamp(stamp).Success? && DurationRun(msg) > 0 ==>
            && (r.Success? <==> parseFloat(msg[..DurationRun(msg)]).Some?)
            && (r.Failure? ==> r.error == ValueError)
            && (r.Success? ==> r.value == Record(f, ParseStamp(stamp).value, parseFloat(msg[..DurationRun(msg)]).value, None)))
  {
    if tag == TagName(LABBER_STATE) then
      var t :- ParseStamp(stamp);
      match StatusNamed(msg)
      case None => Failure(KeyError)
      case Some(l) => Success(Record(f, t, LabberNumber(l) as real, Some(msg)))
    else if tag == TagName(RAMPING_DURATION_S) then
      var t :- ParseStamp(stamp);
      var n := DurationRun(msg);
      if n == 0 then Failure(AttributeError)
      else match parseFloat(msg[..n])
        case None => Failure(ValueError)
        case Some(v) => Success(Record(f, t, v, None))
    else Failure(Raised(NeedsOverride))
  }

  /**
   * `DataFrameMagnetField.pick`: the first word of `FIELD` messages names the magnet;
   * the rest is the field, recorded only for the frame's own magnet.
   */
  function PickField(f: Frame, magnet: Option<string>, stamp: string, msg: string, parseFloat: string -> Option<real>): (r: Result<Frame, Fault>)
    ensures Some(Partition(msg, ' ').0) != magnet ==> r == Success(f)
    ensures Some(Partition(msg, ' ').0) == magnet ==>
      && (r.Success? <==> parseFloat(Partition(msg, ' ').2).Some? && ParseStamp(stamp).Success?)
      && (r.Failure? ==> r.error == ValueError)
      && (r.Success? ==> r.value == Record(f, ParseStamp(stamp).value, parseFloat(Partition(msg, ' ').2).value, None))
    ensures r.Success? ==> Grows(f, r.value)
  {
    var (word, _, rest) := Partition(msg, ' ');
    if Some(word) != magnet then Success(f)
    else match parseFloat(rest)
      case None => Failure(ValueError)
      case Some(v) =>
        var t :- ParseStamp(stamp);
        Success(Record(f, t, v, None))
  }

  /**
   * `DataFrameMagnetState.pick`: a message of exactly three space-separated tokens,
   * magnet, state name and state number; recorded only for the frame's own magnet,
   * with the number as value and the name as label.
   */
  function PickState(f: Frame, magnet: Option<string>, stamp: string, msg: string): (r: Result<Frame, Fault>)
    ensures |Split(msg, ' ')| != 3 ==> r == Failure(ValueError)
    ensures r.Failure? ==> r.error == ValueError
    ensures r.Success? && r.value != f ==>
      var parts := Split(msg, ' ');
      && |parts| == 3 && Some(parts[0]) == magnet
      && ParseInt(parts[2]).Some? && ParseStamp(stamp).Success?
      && r.value == Record(f, ParseStamp(stamp).value, ParseInt(parts[2]).value as real, Some(parts[1]))
    ensures |Split(msg, ' ')| == 3 && Some(Split(msg, ' ')[0]) != magnet ==> r == Success(f)
    ensures |Split(msg, ' ')| == 3 && Some(Split(msg, ' ')[0]) == magnet ==>
      && (r.Success? <==> ParseInt(Split(msg, ' ')[2]).Some? && ParseStamp(stamp).Success?)
      && (r.Success? ==>
            && ParseInt(Split(msg, ' ')[2]).Some? && ParseStamp(stamp).Success?
            && r.value == Record(f, ParseStamp(stamp).value, ParseInt(Split(msg, ' ')[2]).value as real, Some(Split(msg, ' ')[1])))
    ensures r.Success? ==> Grows(f, r.value)
  {
    var parts := Split(msg, ' ');
    if |parts| != 3 then Failure(ValueError)
    else if Some(parts[0]) != magnet then Success(f)
    else match ParseInt(parts[2])
      case None => Failure(ValueError)
      case Some(n) =>
        var t :- ParseStamp(stamp);
        Success(Record(f, t, n as real, Some(parts[1])))
  }

  /** The base of a setpoint quantity name, `ControlSetpoint` followed by the magnet letter. */
  const SetpointBase: string := "ControlSetpoint"

  /** Whether a quantity name is `ControlSetpoint` followed by the frame's one-letter magnet. */
  predicate OwnSetpoint(quantity: string, magnet: Option<string>)
  {
    magnet.Some? && |magnet.value| == 1 && quantity == SetpointBase + magnet.value
  }

  /**
   * `DataFrameSetpoint.pick`, corrected: a message `quantity value new_value`; only
   * `ControlSetpoint` followed by the frame's magnet letter is recorded, with the
   * first value, every decode done before anything is appended.
   */
  function PickSetpoint(f: Frame, magnet: Option<string>, stamp: string, msg: string, parseFloat: string -> Option<real>): (r: Result<Frame, Fault>)
    ensures |Split(msg, ' ')| != 3 ==> r == Failure(ValueError)
    ensures |Split(msg, ' ')| == 3 && Split(msg, ' ')[0] == [] ==> r == Failure(IndexError)
    ensures r.Success? && r.value != f ==>
      var parts := Split(msg, ' ');
      && |parts| == 3 && magnet.Some?
      && parts[0] == SetpointBase + magnet.value
      && |magnet.value| == 1
      && parseFloat(parts[1]).Some? && ParseStamp(stamp).Success?
      && r.value == Record(f, ParseStamp(stamp).value, parseFloat(parts[1]).value, None)
    ensures |Split(msg, ' ')| == 3 && Split(msg, ' ')[0] != [] && !OwnSetpoint(Split(msg, ' ')[0], magnet) ==> r == Success(f)
    ensures |Split(msg, ' ')| == 3 && OwnSetpoint(Split(msg, ' ')[0], magnet) ==>
      && (r.Success? <==> parseFloat(Split(msg, ' ')[1]).Some? && ParseStamp(stamp).Success?)
      && (r.Success? ==>
            && parseFloat(Split(msg, ' ')[1]).Some? && ParseStamp(stamp).Success?
            && r.value == Record(f, ParseStamp(stamp).value, parseFloat(Split(msg, ' ')[1]).value, None))
      && (r.Failure? ==> r.error == ValueError)
    ensures r.Success? ==> Grows(f, r.value)
  {
    var parts := Split(msg, ' ');
    if |parts| != 3 then Failure(ValueError)
    else
      var quantity := parts[0];
      if quantity == [] then Failure(IndexError)
      else if quantity[..|quantity| - 1] != SetpointBase || Some(quantity[|quantity| - 1..]) != magnet then Success(f)
      else
        assert quantity == SetpointBase + magnet.value;
        var t :- ParseStamp(stamp);
        match parseFloat(parts[1])
        case None => Failure(ValueError)
        case Some(v) => Success(Record(f, t, v, None))
  }

  /** The `pick` of the frame's class, corrected to append atomically. */
  function Pick(f: Frame, stamp: string, tag: string, msg: string, parseFloat: string -> Option<real>): (r: Result<Frame, Fault>)
    ensures r.Success? ==> Grows(f, r.value)
  {
    match f.kind
    case Base => PickBase(f, stamp, tag, msg, parseFloat)
    case MagnetField(m) => PickField(f, m, stamp, msg, parseFloat)
    case MagnetState(m) => PickState(f, m, stamp, msg)
    case Setpoint(m) => PickSetpoint(f, m, stamp, msg, parseFloat)
  }

  /**
   * `pick2`: a line that did not match, an untagged line, or a line whose tag is not
   * the frame's, leaves the frame alone; any other line goes to `pick`.
   */
  function Pick2(f: Frame, log: Log, parseFloat: string -> Option<real>): (r: Result<Frame, Fault>)
    ensures log.m.None? ==> r == Success(f)
    ensures log.m.Some? && log.m.value.tagged.None? ==> r == Success(f)
    ensures log.m.Some? && log.m.value.tagged.Some? && log.m.value.tagged.value.tag != TagName(f.tag) ==> r == Success(f)
    ensures r.Success? ==> Grows(f, r.value)
  {
    match log.m
    case None => Success(f)
    case Some(m) =>
      if m.tagged.None? || m.tagged.value.tag != TagName(f.tag) then Success(f)
      else Pick(f, m.timeStamp, m.tagged.value.tag, m.msg, parseFloat)
  }

  // ---------------------------------------------------------------------
  // The picks as written: the time stamp is appended before the value is decoded.

  /** `DataframeBase.pick` as written: returns the frame left behind and the exception raised. */
  function PickBaseAsWritten(f: Frame, stamp: string, tag: string, msg: string, parseFloat: string -> Option<real>): (r: (Frame, Option<Fault>))
  {
    if tag == TagName(LABBER_STATE) || tag == TagName(RAMPING_DURATION_S) then
      match ParseStamp(stamp)
      case Failure(e) => (f, Some(e))
      case Success(t) =>
        var g := f.(timeStamps := f.timeStamps + [t]);
        if tag == TagName(LABBER_STATE) then
          match StatusNamed(msg)
          case None => (g, Some(KeyError))
          case Some(l) => (g.(values := f.values + [LabberNumber(l) as real], labels := f.labels + [msg]), None)
        else
          var n := DurationRun(msg);
          if n == 0 then (g, Some(AttributeError))
          else match parseFloat(msg[..n])
            case None => (g, Some(ValueError))
            case Some(v) => (g.(values := f.values + [v]), None)
    else (f, Some(Raised(NeedsOverride)))
  }

  /** `DataFrameSetpoint.pick` as written. */
  function PickSetpointAsWritten(f: Frame, magnet: Option<string>, stamp: string, msg: string, parseFloat: string -> Option<real>): (r: (Frame, Option<Fault>))
  {
    var parts := Split(msg, ' ');
    if |parts| != 3 then (f, Some(ValueError))
    else
      var quantity := parts[0];
      if quantity == [] then (f, Some(IndexError))
      else if quantity[..|quantity| - 1] != SetpointBase || Some(quantity[|quantity| - 1..]) != magnet then (f, None)
      else match ParseStamp(stamp)
        case Failure(e) => (f, Some(e))
        case Success(t) =>
          var g := f.(timeStamps := f.timeStamps + [t]);
          match parseFloat(parts[1])
          case None => (g, Some(ValueError))
          case Some(v) => (g.(values := f.values + [v]), None)
  }

  /** The `pick` of the frame's class as written. */
  function PickAsWritten(f: Frame, stamp: string, tag: string, msg: string, parseFloat: string -> Option<real>): (r: (Frame, Option<Fault>))
  {
    match f.kind
    case Base => PickBaseAsWritten(f, stamp, tag, msg, parseFloat)
    case Setpoint(m) => PickSetpointAsWritten(f, m, stamp, msg, parseFloat)
    case _ =>
      match Pick(f, stamp, tag, msg, parseFloat)
      case Success(g) => (g, None)
      case Failure(e) => (f, Some(e))
  }

  /**
   * The written and the corrected `pick` raise in the same cases with the same
   * exception and agree when nothing is raised; when they raise, the written one
   * may leave a time stamp behind without its value.
   */
  lemma PickAsWrittenAgrees(f: Frame, stamp: string, tag: string, msg: string, parseFloat: string -> Option<real>)
    ensures var (g, e) := PickAsWritten(f, stamp, tag, msg, parseFloat);
      var r := Pick(f, stamp, tag, msg, parseFloat);
      && (e.None? <==> r.Success?)
      && (r.Success? ==> g == r.value)
      && (r.Failure? ==> e == Some(r.error) && (g == f || exists t :: g == f.(timeStamps := f.timeStamps + [t])))
  {
  }

  /** The torn append: an unknown status name leaves a time stamp without a value. */
  lemma TornStatusAppend(f: Frame, d: DateTime, msg: string, parseFloat: string -> Option<real>)
    requires f.kind == Base && Balanced(f)
    requires ValidDateTime(d) && d.microsecond % 1000 == 0
    requires forall l :: LabberName(l) != msg
    ensures PickAsWritten(f, FormatStamp(d), TagName(LABBER_STATE), msg, parseFloat)
      == (f.(timeStamps := f.timeStamps + [d]), Some(KeyError))
    ensures !Balanced(PickAsWritten(f, FormatStamp(d), TagName(LABBER_STATE), msg, parseFloat).0)
  {
    ParseFormatStamp(d);
  }

  /** The torn append of a setpoint frame: a first value that is not a number leaves a time stamp without a value. */
  lemma TornSetpointAppend(f: Frame, d: DateTime, axis: string, value: string, newValue: string, parseFloat: string -> Option<real>)
    requires f.kind == Setpoint(Some(axis)) && Balanced(f)
    requires ValidDateTime(d) && d.microsecond % 1000 == 0
    requires |axis| == 1 && axis != " " && ' ' !in value && ' ' !in newValue
    requires parseFloat(value).None?
    ensures PickAsWritten(f, FormatStamp(d), TagName(LABBER_SET), SetpointBase + axis + " " + value + " " + newValue, parseFloat)
      == (f.(timeStamps := f.timeStamps + [d]), Some(ValueError))
    ensures !Balanced(PickAsWritten(f, FormatStamp(d), TagName(LABBER_SET), SetpointBase + axis + " " + value + " " + newValue, parseFloat).0)
  {
    ParseFormatStamp(d);
    SetpointMessage(axis, value, newValue);
  }

  // ---------------------------------------------------------------------
  // Splitting a message of three tokens.

  /** The tokens of a setpoint message, and the base and magnet letter of its quantity. */
  lemma SetpointMessage(axis: string, value: string, newValue: string)
    requires |axis| == 1 && axis != " " && ' ' !in value && ' ' !in newValue
    ensures var parts := Split(SetpointBase + axis + " " + value + " " + newValue, ' ');
      && parts == [SetpointBase + axis, value, newValue]
      && parts[0][..|parts[0]| - 1] == SetpointBase
      && parts[0][|parts[0]| - 1..] == axis
  {
    var q := SetpointBase + axis;
    assert ' ' !in SetpointBase by {
      assert forall k | 0 <= k < |SetpointBase| :: SetpointBase[k] != ' ';
    }
    assert axis[0] != ' ';
    assert ' ' !in q;
    SplitThree(q, value, newValue, ' ');
    assert q[..|q| - 1] == SetpointBase && q[|q| - 1..] == axis;
  }

  lemma {:induction false} FirstIndexAfter(a: string, sep: char, rest: string)
    requires sep !in a
    ensures FirstIndex(a + [sep] + rest, sep) == |a|
    decreases |a|
  {
    if a != [] {
      assert (a + [sep] + rest)[1..] == a[1..] + [sep] + rest;
      FirstIndexAfter(a[1..], sep, rest);
    }
  }

  lemma SplitNone(c: string, sep: char)
    requires sep !in c
    ensures Split(c, sep) == [c]
  {
  }

  lemma SplitCons(a: string, sep: char, rest: string)
    requires sep !in a
    ensures Split(a + [sep] + rest, sep) == [a] + Split(rest, sep)
  {
    var s := a + [sep] + rest;
    FirstIndexAfter(a, sep, rest);
    assert s[..|a|] == a && s[|a| + 1..] == rest;
  }

  /** `(a + sep + b + sep + c).split(sep) == [a, b, c]` when no token holds the separator. */
  lemma SplitThree(a: string, b: string, c: string, sep: char)
    requires sep !in a && sep !in b && sep !in c
    ensures Split(a + [sep] + b + [sep] + c, sep) == [a, b, c]
  {
    var tail := b + [sep] + c;
    assert a + [sep] + b + [sep] + c == a + [sep] + tail;
    SplitCons(b, sep, c);
    SplitNone(c, sep);
    assert Split(tail, sep) == [b, c];
    SplitCons(a, sep, tail);
  }

  // ---------------------------------------------------------------------
  // What each frame records from the line the logger writes for it.

  /** An aggregate-status line is recorded as its status number, labelled with its name. */
  lemma StatusRecorded(f: Frame, d: DateTime, l: LabberState, parseFloat: string -> Option<real>)
    requires f.kind == Base && f.tag == LABBER_STATE
    requires ValidDateTime(d) && d.microsecond % 1000 == 0
    ensures Pick2(f, Log(1, Some(Match(FormatStamp(d), Some(Tagged("INFO", "LABBER_STATE")), LabberName(l)))), parseFloat)
      == Success(Record(f, d, LabberNumber(l) as real, Some(LabberName(l))))
  {
    ParseFormatStamp(d);
    LabberClassWellFormed();
    var r := StatusNamed(LabberName(l));
    assert r.Some?;
    NamesInjective(LabberClass, r.value, l);
  }

  /** A magnet-state line `MAGNET STATE NUMBER` for the frame's magnet is recorded as the number, labelled with the state. */
  lemma MagnetStateRecorded(f: Frame, d: DateTime, magnet: string, state: string, n: int)
    requires f.kind == MagnetState(Some(magnet))
    requires ValidDateTime(d) && d.microsecond % 1000 == 0
    requires ' ' !in magnet && ' ' !in state
    ensures Pick(f, FormatStamp(d), TagName(MAGNET_STATE), magnet + " " + state + " " + IntText(n), x => None)
      == Success(Record(f, d, n as real, Some(state)))
  {
    ParseFormatStamp(d);
    IntTextNoSpace(n);
    SplitThree(magnet, state, IntText(n), ' ');
    ParseIntText(n);
  }

  lemma IntTextNoSpace(n: int)
    ensures ' ' !in IntText(n)
  {
    var m: nat := if n < 0 then -n else n;
    var ds := NatText(m);
    assert forall k | 0 <= k < |ds| :: ds[k] != ' ';
  }

  /** A setpoint line for the frame's magnet is recorded as its first value. */
  lemma SetpointRecorded(f: Frame, d: DateTime, axis: string, value: string, newValue: string, v: real, parseFloat: string -> Option<real>)
    requires f.kind == Setpoint(Some(axis))
    requires ValidDateTime(d) && d.microsecond % 1000 == 0
    requires |axis| == 1 && axis != " " && ' ' !in value && ' ' !in newValue
    requires parseFloat(value) == Some(v)
    ensures Pick(f, FormatStamp(d), TagName(LABBER_SET), SetpointBase + axis + " " + value + " " + newValue, parseFloat)
      == Success(Record(f, d, v, None))
  {
    ParseFormatStamp(d);
    SetpointMessage(axis, value, newValue);
  }

  /** A field line for the frame's magnet is recorded as the number after the magnet. */
  lemma FieldRecorded(f: Frame, d: DateTime, magnet: string, text: string, v: real, parseFloat: string -> Option<real>)
    requires f.kind == MagnetField(Some(magnet))
    requires ValidDateTime(d) && d.microsecond % 1000 == 0
    requires ' ' !in magnet && parseFloat(text) == Some(v)
    ensures Pick(f, FormatStamp(d), TagName(MAGNET_FIELD), magnet + " " + text, parseFloat)
      == Success(Record(f, d, v, None))
  {
    ParseFormatStamp(d);
    var msg := magnet + " " + text;
    FirstIndexAfter(magnet, ' ', text);
    assert msg[..|magnet|] == magnet && msg[|magnet| + 1..] == text;
  }

  // ---------------------------------------------------------------------
  // Feeding a whole file to a frame.

  /** Picking every log in turn, stopping at the first that raises: the frame reached and the exception. */
  function Fold(f: Frame, logs: seq<Log>, parseFloat: string -> Option<real>): (r: (Frame, Option<Fault>))
    decreases |logs|
  {
    if logs == [] then (f, None)
    else
      var (g, e) := Fold(f, logs[..|logs| - 1], parseFloat);
      if e.Some? then (g, e)
      else match Pick2(g, logs[|logs| - 1], parseFloat)
        case Success(h) => (h, None)
        case Failure(x) => (g, Some(x))
  }

  /** `|time_stamp| == |value|` holds after any sequence of corrected picks. */
  lemma {:induction false} FoldBalanced(f: Frame, logs: seq<Log>, parseFloat: string -> Option<real>)
    requires Balanced(f)
    ensures Balanced(Fold(f, logs, parseFloat).0)
    ensures Fold(f, logs, parseFloat).0.kind == f.kind && Fold(f, logs, parseFloat).0.tag == f.tag
    decreases |logs|
  {
    if logs != [] {
      FoldBalanced(f, logs[..|logs| - 1], parseFloat);
      var (g, e) := Fold(f, logs[..|logs| - 1], parseFloat);
      if e.None? {
        var r := Pick2(g, logs[|logs| - 1], parseFloat);
        if r.Success? {
          GrowsBalanced(g, r.value);
        }
      }
    }
  }

  /** Once a pick has raised, later logs change nothing. */
  lemma {:induction false} FoldStops(f: Frame, logs: seq<Log>, i: nat, parseFloat: string -> Option<real>)
    requires i <= |logs| && Fold(f, logs[..i], parseFloat).1.Some?
    ensures Fold(f, logs, parseFloat) == Fold(f, logs[..i], parseFloat)
    decreases |logs| - i
  {
    if i < |logs| {
      assert logs[..i + 1][..i] == logs[..i];
      FoldStops(f, logs, i + 1, parseFloat);
    } else {
      assert logs[..i] == logs;
    }
  }

  /**
   * Feed the logs of a file to a frame, as the plotting scripts do, stopping at the
   * first exception. The frame stays balanced.
   */
  method PickAll(f: Frame, logs: seq<Log>, parseFloat: string -> Option<real>) returns (g: Frame, fault: Option<Fault>)
    requires Balanced(f)
    ensures (g, fault) == Fold(f, logs, parseFloat)
    ensures Balanced(g)
  {
    g, fault := f, None;
    var i := 0;
    while i < |logs| && fault.None?
      invariant 0 <= i <= |logs|
      invariant (g, fault) == Fold(f, logs[..i], parseFloat)
      invariant Balanced(g)
    {
      assert logs[..i + 1][..i] == logs[..i];
      var r := Pick2(g, logs[i], parseFloat);
      if r.Success? {
        GrowsBalanced(g, r.value);
        g := r.value;
      } else {
        fault := Some(r.error);
      }
      i := i + 1;
    }
    if fault.Some? {
      FoldStops(f, logs, i, parseFloat);
    } else {
      assert logs[..i] == logs;
    }
  }
}

=== FILE: driver_utils.dfy ===
/**
 * The enumeration helpers every enum of the driver mixes in (`EnumMixin`):
 * lookup by member name with a descriptive error, decoding of an instrument
 * reply by member value, and the sorted list of member names used in error
 * messages. `EnumLogging` is the logging-level enum defined beside them.
 */
module DriverUtils {
  import opened Wrappers
  import opened Errors
  import opened Text

  /** The value behind an enum member: an `IntEnum` carries an integer, a plain `Enum` here a string. */
  datatype EnumValue = IntValue(i: int) | TextValue(s: string)

  /** An enumeration class: its members in definition order, and each member's name and value. */
  datatype EnumClass<!T> = EnumClass(members: seq<T>, name: T -> string, value: T -> EnumValue)

  /** Every value of `T` is a member, and names and values are unique among the members. */
  ghost predicate WellFormed<T(!new)>(c: EnumClass<T>) {
    && (forall t: T :: t in c.members)
    && (forall i, j | 0 <= i < j < |c.members| :: c.name(c.members[i]) != c.name(c.members[j]))
    && (forall i, j | 0 <= i < j < |c.members| :: c.value(c.members[i]) != c.value(c.members[j]))
  }

  /** The member named `s`, as `cls[s]` finds it. */
  function FindByName<T>(members: seq<T>, name: T -> string, s: string): (r: Option<T>)
    ensures r.Some? ==> r.value in members && name(r.value) == s
    ensures r.None? ==> forall m | m in members :: name(m) != s
  {
    if members == [] then None
    else if name(members[0]) == s then Some(members[0])
    else FindByName(members[1..], name, s)
  }

  /** The member whose value is `v`, as `cls(v)` finds it. */
  function FindByValue<T>(members: seq<T>, value: T -> EnumValue, v: EnumValue): (r: Option<T>)
    ensures r.Some? ==> r.value in members && value(r.value) == v
    ensures r.None? ==> forall m | m in members :: value(m) != v
  {
    if members == [] then None
    else if value(members[0]) == v then Some(members[0])
    else FindByValue(members[1..], value, v)
  }

  function QuotedNames<T>(members: seq<T>, name: T -> string): (r: seq<string>)
    ensures |r| == |members|
    ensures forall i | 0 <= i < |members| :: r[i] == Quote(name(members[i]))
  {
    if members == [] then [] else [Quote(name(members[0]))] + QuotedNames(members[1..], name)
  }

  /**
   * `all_text`: the member names, each double-quoted, in Python's string order,
   * joined by ", ".
   */
  function AllText<T>(c: EnumClass<T>): (r: string)
    ensures exists q: seq<string> ::
      && Sorted(q)
      && multiset(q) == multiset(QuotedNames(c.members, c.name))
      && r == Join(", ", q)
  {
    var q := Sort(QuotedNames(c.members, c.name));
    assert Sorted(q) && multiset(q) == multiset(QuotedNames(c.members, c.name));
    Join(", ", q)
  }

  /** The text of the exception `get_exception` and `from_visa` raise. */
  function UnknownMessage<T>(c: EnumClass<T>, s: string): string {
    "Unkown \"" + s + "\". Expect one of " + AllText(c) + "!"
  }

  /** `get_exception(s)`: the member named `s`, or an exception whose message names `s`. */
  function GetException<T>(c: EnumClass<T>, s: string): (r: Result<T, Fault>)
    ensures r.Success? <==> exists m | m in c.members :: c.name(m) == s
    ensures r.Success? ==> r.value in c.members && c.name(r.value) == s
    ensures r.Failure? ==> r.error == Raised(UnknownMessage(c, s))
  {
    match FindByName(c.members, c.name, s)
    case Some(m) => Success(m)
    case None => Failure(Raised(UnknownMessage(c, s)))
  }

  /** The message of a failed lookup quotes the offending text right after `Unkown "`. */
  lemma UnknownMessageNames<T>(c: EnumClass<T>, s: string)
    ensures UnknownMessage(c, s)[8..8 + |s|] == s
  {
  }

  /** Two members with the same name are the same member. */
  lemma NamesInjective<T(!new)>(c: EnumClass<T>, a: T, b: T)
    requires WellFormed(c)
    requires c.name(a) == c.name(b)
    ensures a == b
  {
    var ms := c.members;
    assert a in ms && b in ms;
    var i :| 0 <= i < |ms| && ms[i] == a;
    var j :| 0 <= j < |ms| && ms[j] == b;
    assert forall p, q | 0 <= p < |ms| && 0 <= q < |ms| && c.name(ms[p]) == c.name(ms[q]) :: p == q;
  }

  /** Two members with the same value are the same member. */
  lemma ValuesInjective<T(!new)>(c: EnumClass<T>, a: T, b: T)
    requires WellFormed(c)
    requires c.value(a) == c.value(b)
    ensures a == b
  {
    var ms := c.members;
    assert a in ms && b in ms;
    var i :| 0 <= i < |ms| && ms[i] == a;
    var j :| 0 <= j < |ms| && ms[j] == b;
    assert forall p, q | 0 <= p < |ms| && 0 <= q < |ms| && c.value(ms[p]) == c.value(ms[q]) :: p == q;
  }

  /** Round trip: looking a member up by its own name gives the member back. */
  lemma GetExceptionName<T(!new)>(c: EnumClass<T>, m: T)
    requires WellFormed(c)
    ensures GetException(c, c.name(m)) == Success(m)
  {
    var r := GetException(c, c.name(m));
    assert m in c.members;
    assert r.Success?;
    NamesInjective(c, r.value, m);
  }

  /**
   * `from_visa` as the code is written: text that is not an integer raises the
   * descriptive exception, but an integer that is no member's value makes `cls(v)`
   * raise a `ValueError`, which the surrounding `except KeyError` does not catch.
   */
  function FromVisaAsWritten<T>(c: EnumClass<T>, text: string): (r: Result<T, Fault>)
    ensures ParseInt(text).None? ==> r == Failure(Raised(UnknownMessage(c, text)))
    ensures ParseInt(text).Some? && r.Failure? ==> r.error == ValueError
    ensures ParseInt(text).Some? ==>
      (r.Success? <==> exists m | m in c.members :: c.value(m) == IntValue(ParseInt(text).value))
    ensures r.Success? ==> r.value in c.members && c.value(r.value) == IntValue(ParseInt(text).value)
  {
    match ParseInt(text)
    case None => Failure(Raised(UnknownMessage(c, text)))
    case Some(v) =>
      match FindByValue(c.members, c.value, IntValue(v))
      case Some(m) => Success(m)
      case None => Failure(ValueError)
  }

  /**
   * `from_visa` as evidently intended: every reply that is not the decimal text
   * of a member's value raises the descriptive exception naming the reply.
   */
  function FromVisa<T>(c: EnumClass<T>, text: string): (r: Result<T, Fault>)
    ensures r.Success? <==> ParseInt(text).Some? && exists m | m in c.members :: c.value(m) == IntValue(ParseInt(text).value)
    ensures r.Success? ==> r.value in c.members && c.value(r.value) == IntValue(ParseInt(text).value)
    ensures r.Failure? ==> r.error == Raised(UnknownMessage(c, text))
  {
    match ParseInt(text)
    case None => Failure(Raised(UnknownMessage(c, text)))
    case Some(v) =>
      match FindByValue(c.members, c.value, IntValue(v))
      case Some(m) => Success(m)
      case None => Failure(Raised(UnknownMessage(c, text)))
  }

  /** Both readings agree whenever the reply decodes to a member. */
  lemma FromVisaAgrees<T>(c: EnumClass<T>, text: string)
    ensures FromVisa(c, text).Success? ==> FromVisaAsWritten(c, text) == FromVisa(c, text)
  {
  }

  /** The decimal text of a member's value decodes to that member. */
  lemma FromVisaValue<T(!new)>(c: EnumClass<T>, m: T, v: int)
    requires WellFormed(c)
    requires c.value(m) == IntValue(v)
    ensures FromVisa(c, IntText(v)) == Success(m)
  {
    ParseIntText(v);
    var r := FromVisa(c, IntText(v));
    assert m in c.members;
    assert r.Success?;
    ValuesInjective(c, r.value, m);
  }

  /** An integer that is no member's value: the code lets a bare `ValueError` escape. */
  lemma FromVisaUnknownValue<T>(c: EnumClass<T>, v: int)
    requires forall m | m in c.members :: c.value(m) != IntValue(v)
    ensures FromVisaAsWritten(c, IntText(v)) == Failure(ValueError)
    ensures FromVisa(c, IntText(v)) == Failure(Raised(UnknownMessage(c, IntText(v))))
  {
    ParseIntText(v);
  }

  // ---------------------------------------------------------------------
  // The logging-level enum.

  datatype EnumLogging = DEBUG | INFO | WARNING

  function LoggingName(l: EnumLogging): string {
    match l
    case DEBUG => "DEBUG"
    case INFO => "INFO"
    case WARNING => "WARNING"
  }

  /** Each logging level's value is its own name. */
  function LoggingValue(l: EnumLogging): EnumValue {
    TextValue(LoggingName(l))
  }

  const LoggingClass: EnumClass<EnumLogging> := EnumClass([DEBUG, INFO, WARNING], LoggingName, LoggingValue)

  lemma LoggingWellFormed()
    ensures WellFormed(LoggingClass)
  {
    forall t: EnumLogging
      ensures t in LoggingClass.members
    {
      var ms := LoggingClass.members;
      assert ms == [DEBUG, INFO, WARNING];
      match t
      case DEBUG => assert ms[0] == t;
      case INFO => assert ms[1] == t;
      case WARNING => assert ms[2] == t;
    }
  }

  /** `EnumLogging.get_exception` succeeds exactly on the name of a level. */
  lemma LoggingNamed(s: string)
    ensures GetException(LoggingClass, s).Success? <==> exists l: EnumLogging :: LoggingName(l) == s
  {
    LoggingWellFormed();
    if l: EnumLogging :| LoggingName(l) == s {
      assert l in LoggingClass.members && LoggingClass.name(l) == s;
    }
  }
}

=== FILE: field_limit.dfy ===
/**
 * The field-limit safety validator (`field_limit_tests.py`): a field setpoint
 * vector is allowed when it lies in at least one of a list of safe zones, and a
 * new setpoint for one axis is written only when the vector it would produce is
 * allowed. Norms are compared through their squares, which is equivalent for
 * non-negative bounds.
 */
module FieldLimit {
  import opened Wrappers
  import opened Errors
  import opened Config

  /** Field setpoints of the three axes, in tesla. */
  datatype Vec = Vec(x: real, y: real, z: real)

  /** The tolerance within which a coordinate counts as zero. */
  const Zero: real := 0.000_000_000_001

  /** The safe zones of the `field_limit` list. */
  datatype Zone =
    | OnZAxis   // x and y zero, z at most 6 T (any negative z included)
    | InYZDisc  // x zero, the (y, z) part of norm at most 3 T
    | InBall    // norm at most 1 T

  predicate Holds(zone: Zone, v: Vec) {
    match zone
    case OnZAxis => Abs(v.x) <= Zero && Abs(v.y) <= Zero && v.z <= 6.0
    case InYZDisc => Abs(v.x) <= Zero && v.y * v.y + v.z * v.z <= 9.0
    case InBall => v.x * v.x + v.y * v.y + v.z * v.z <= 1.0
  }

  const FieldLimitZones: seq<Zone> := [OnZAxis, InYZDisc, InBall]

  /** `any(limit(*v) for limit in zones)`. */
  function AnyHolds(zones: seq<Zone>, v: Vec): (r: bool)
    ensures r <==> exists i | 0 <= i < |zones| :: Holds(zones[i], v)
  {
    if zones == [] then false
    else if Holds(zones[0], v) then true
    else
      var r := AnyHolds(zones[1..], v);
      assert r <==> exists i | 1 <= i < |zones| :: Holds(zones[i], v) by {
        if r {
          var i :| 0 <= i < |zones[1..]| && Holds(zones[1..][i], v);
          assert Holds(zones[i + 1], v);
        }
        if exists i | 1 <= i < |zones| :: Holds(zones[i], v) {
          var i :| 1 <= i < |zones| && Holds(zones[i], v);
          assert Holds(zones[1..][i - 1], v);
        }
      }
      r
  }

  /** The setpoints with the one named `magnet` replaced; a name other than "x", "y", "z" replaces nothing. */
  function Replace(sp: Vec, magnet: string, value: real): (r: Vec)
    ensures r.x == (if magnet == "x" then value else sp.x)
    ensures r.y == (if magnet == "y" then value else sp.y)
    ensures r.z == (if magnet == "z" then value else sp.z)
  {
    if magnet == "x" then sp.(x := value)
    else if magnet == "y" then sp.(y := value)
    else if magnet == "z" then sp.(z := value)
    else sp
  }

  /** `_check_field_setpoint`: is the vector with the one setpoint replaced inside some zone? */
  function CheckFieldSetpoint(zones: seq<Zone>, sp: Vec, magnet: string, value: real): (r: bool)
    ensures r <==> exists i | 0 <= i < |zones| :: Holds(zones[i], Replace(sp, magnet, value))
  {
    AnyHolds(zones, Replace(sp, magnet, value))
  }

  predicate KnownMagnet(magnet: string) {
    magnet == "x" || magnet == "y" || magnet == "z"
  }

  const NotAllowed: string := "The value is not allowed"

  /**
   * `TestStation.set_quantity`: an unknown name raises `KeyError` before anything
   * is checked; a value that would leave every zone raises and writes nothing; an
   * allowed value is written to the named axis only.
   */
  function SetQuantity(zones: seq<Zone>, sp: Vec, magnet: string, value: real): (r: Result<Vec, Fault>)
    ensures !KnownMagnet(magnet) ==> r == Failure(KeyError)
    ensures KnownMagnet(magnet) ==>
      (r.Success? <==> exists i | 0 <= i < |zones| :: Holds(zones[i], Replace(sp, magnet, value)))
    ensures KnownMagnet(magnet) && r.Failure? ==> r.error == Raised(NotAllowed)
    ensures r.Success? ==>
      && (exists i | 0 <= i < |zones| :: Holds(zones[i], r.value))
      && (magnet == "x" ==> r.value == Vec(value, sp.y, sp.z))
      && (magnet == "y" ==> r.value == Vec(sp.x, value, sp.z))
      && (magnet == "z" ==> r.value == Vec(sp.x, sp.y, value))
  {
    if !KnownMagnet(magnet) then Failure(KeyError)
    else if CheckFieldSetpoint(zones, sp, magnet, value) then Success(Replace(sp, magnet, value))
    else Failure(Raised(NotAllowed))
  }

  /** Setting a coordinate to the value it already has, inside a zone, changes nothing. */
  lemma SetUnchangedValue(zones: seq<Zone>, sp: Vec)
    requires AnyHolds(zones, sp)
    ensures SetQuantity(zones, sp, "x", sp.x) == Success(sp)
    ensures SetQuantity(zones, sp, "y", sp.y) == Success(sp)
    ensures SetQuantity(zones, sp, "z", sp.z) == Success(sp)
  {
    assert Replace(sp, "x", sp.x) == sp;
    assert Replace(sp, "y", sp.y) == sp;
    assert Replace(sp, "z", sp.z) == sp;
  }

  // ---------------------------------------------------------------------
  // The vectors of the installation's limit tests, as witnesses.

  function Accepted(v: Vec): bool {
    AnyHolds(FieldLimitZones, v)
  }

  lemma OnZAxisVectors()
    ensures Accepted(Vec(0.0, 0.0, 0.0))
    ensures Accepted(Vec(-0.000_000_000_000_1, -0.000_000_000_000_1, -0.000_000_000_000_1))
    ensures Accepted(Vec(0.0, 0.0, 6.0))
    ensures !Accepted(Vec(0.0, 0.0, 6.01)) && !Accepted(Vec(0.0, 0.0, 6.1))
  {
    assert Holds(OnZAxis, Vec(0.0, 0.0, 0.0));
    assert Holds(OnZAxis, Vec(0.0, 0.0, 6.0));
    assert Holds(OnZAxis, Vec(-0.000_000_000_000_1, -0.000_000_000_000_1, -0.000_000_000_000_1));
  }

  lemma AxisVectors()
    ensures Accepted(Vec(1.0, 0.0, 0.0))
    ensures !Accepted(Vec(1.1, 0.0, 0.0))
    ensures !Accepted(Vec(0.0, 3.1, 0.0))
    ensures !Accepted(Vec(1.0, 0.002, 0.0))
    ensures !Accepted(Vec(0.000_01, 3.0, 0.0))
    ensures !Accepted(Vec(12.0, 12.0, 12.0))
  {
    assert Holds(InBall, Vec(1.0, 0.0, 0.0));
  }

  /** (0, 3/√2, 3/√2) lies on the rim of the y-z disc. */
  lemma DiscRimVector(a: real)
    requires a > 0.0 && 2.0 * a * a == 9.0
    ensures Accepted(Vec(0.0, a, a))
  {
    assert Holds(InYZDisc, Vec(0.0, a, a));
  }

  /** (1/√2, 1/√2, 0) and (1/√2, 0, 1/√2) lie on the unit sphere. */
  lemma SphereVectors2(a: real)
    requires a > 0.0 && 2.0 * a * a == 1.0
    ensures Accepted(Vec(a, a, 0.0)) && Accepted(Vec(a, 0.0, a))
  {
    assert Holds(InBall, Vec(a, a, 0.0));
    assert Holds(InBall, Vec(a, 0.0, a));
  }

  /** (1/√3, 1/√3, 1/√3) lies on the unit sphere; stretching its x by 0.1 % leaves every zone. */
  lemma SphereVectors3(a: real)
    requires a > 0.5 && 3.0 * a * a == 1.0
    ensures Accepted(Vec(a, a, a))
    ensures !Accepted(Vec(1.001 * a, a, a))
  {
    assert Holds(InBall, Vec(a, a, a));
    var b := 1.001 * a;
    assert b * b + a * a + a * a == (1.002001 + 2.0) * (a * a);
  }
}

=== FILE: instrument.dfy ===
/**
 * What a station knows about each of its axes between two ticks, what the
 * supplies report when they are queried, and the commands written to them.
 * The instrument connection itself is not modelled: a query becomes an
 * `Observation` supplied by the caller, a write becomes a `Command` in the
 * trace a step returns.
 */
module Instrument {
  import opened Wrappers
  import opened Config
  import opened InstrumentState

  /** The three axis handles a station may hold, named as the driver names them. */
  datatype AxisName = X | Y | Z

  function AxisLabel(a: AxisName): (r: string)
    ensures |r| == 1
  {
    match a
    case X => "X"
    case Y => "Y"
    case Z => "Z"
  }

  /**
   * A `VisaMagnet` handle: the magnet configuration, the field setpoint and ramp
   * rate to use for the next ramp, and the field last reached by a ramp (`None`
   * until a ramp of this axis has finished).
   */
  datatype AxisRuntime = AxisRuntime(magnet: Magnet, setpoint: real, rampRate: real, fieldActual: Option<real>)

  /** A freshly opened handle: setpoint and ramp rate zero, no field reached yet. */
  function NewAxis(m: Magnet): (r: AxisRuntime)
    ensures r.magnet == m && r.fieldActual.None?
    ensures r.setpoint == 0.0 && r.rampRate == 0.0
  {
    AxisRuntime(m, 0.0, 0.0, None)
  }

  /** The replies of one supply during one tick: `STATE?`, `PS?` and `FIELD:MAG?`. */
  datatype Observation = Observation(state: AMI430State, switchheater: int, field: real)

  /** The replies of all three supplies during one tick; only the present axes are ever asked. */
  datatype Readings = Readings(x: Observation, y: Observation, z: Observation) {
    function Of(a: AxisName): Observation {
      match a
      case X => x
      case Y => y
      case Z => z
    }
  }

  /** The two station flags that decide how far a switch-heated magnet is parked after a ramp. */
  datatype HoldFlags = HoldFlags(switchheaterOn: bool, current: bool)

  /** A command written to a supply. */
  datatype Command =
    | Pause                     // PAUSE
    | ConfRampRate(rate: real)  // CONF:RAMP:RATE:FIELD 1,<rate>,0
    | ConfTarget(field: real)   // CONF:FIELD:TARG <field>
    | Ramp                      // RAMP
    | HeaterOn                  // PS 1
    | HeaterOff                 // PS 0
    | Zero                      // ZERO

  /** A command together with the axis whose supply received it. */
  datatype Sent = Sent(axis: AxisName, command: Command)

  /** The three optional axis handles of a station, `visa_magnet_x/y/z`. */
  datatype Axes = Axes(x: Option<AxisRuntime>, y: Option<AxisRuntime>, z: Option<AxisRuntime>) {

    function Get(a: AxisName): Option<AxisRuntime> {
      match a
      case X => x
      case Y => y
      case Z => z
    }

    /** The same handles with the one of axis `a` replaced by `r`. */
    function With(a: AxisName, r: AxisRuntime): (res: Axes)
      ensures res.Get(a) == Some(r)
      ensures forall b: AxisName | b != a :: res.Get(b) == Get(b)
    {
      match a
      case X => this.(x := Some(r))
      case Y => this.(y := Some(r))
      case Z => this.(z := Some(r))
    }

    /** `visa_magnets`: the present axes in the order X, Y, Z. */
    function Present(): (r: seq<AxisName>)
      ensures forall a: AxisName :: a in r <==> Get(a).Some?
      ensures forall i, j | 0 <= i < j < |r| :: r[i] != r[j]
      ensures |r| == (if x.Some? then 1 else 0) + (if y.Some? then 1 else 0) + (if z.Some? then 1 else 0)
    {
      (if x.Some? then [X] else []) + (if y.Some? then [Y] else []) + (if z.Some? then [Z] else [])
    }
  }

  /** A station before `open`: no axis handle at all. */
  const NoAxes: Axes := Axes(None, None, None)
}

=== FILE: log_parser.dfy ===
/**
 * The log-line recogniser of the log parser (`re_line`) and `parse_file`.
 * A line is a 23-character time stamp `dddd-dd-dd dd:dd:dd,ddd`, a space, and
 * either a tagged message (`SEVERITY TAG message`) or any other text.
 */
module LogParser {
  import opened Wrappers
  import opened Text

  predicate IsUpper(c: char) {
    'A' <= c <= 'Z'
  }

  /** `[A-Za-z0-9_]`. */
  predicate IsWord(c: char) {
    IsUpper(c) || ('a' <= c <= 'z') || IsDigit(c) || c == '_'
  }

  /** `\d\d\d\d-\d\d-\d\d \d\d:\d\d:\d\d,\d\d\d`. */
  predicate StampShape(s: string) {
    && |s| == 23
    && s[4] == '-' && s[7] == '-' && s[10] == ' ' && s[13] == ':' && s[16] == ':' && s[19] == ','
    && (forall k | 0 <= k < 23 && k !in {4, 7, 10, 13, 16, 19} :: IsDigit(s[k]))
  }

  /** Length of the longest prefix of `s` made of upper-case letters. */
  function UpperRun(s: string): (n: nat)
    ensures n <= |s|
    ensures forall k | 0 <= k < n :: IsUpper(s[k])
    ensures n < |s| ==> !IsUpper(s[n])
  {
    if s != [] && IsUpper(s[0]) then 1 + UpperRun(s[1..]) else 0
  }

  /** Length of the longest prefix of `s` made of word characters. */
  function WordRun(s: string): (n: nat)
    ensures n <= |s|
    ensures forall k | 0 <= k < n :: IsWord(s[k])
    ensures n < |s| ==> !IsWord(s[n])
  {
    if s != [] && IsWord(s[0]) then 1 + WordRun(s[1..]) else 0
  }

  /** The severity and tag groups of a tagged line. */
  datatype Tagged = Tagged(severity: string, tag: string)

  /**
   * A successful match: the time stamp, the severity and tag when the line is
   * tagged, and the message (the `msg` group of a tagged line, the
   * `msg_without_tag` group of any other).
   */
  datatype Match = Match(timeStamp: string, tagged: Option<Tagged>, msg: string)

  /** A numbered line of a log file and its match, `None` where the line does not match. */
  datatype Log = Log(lineno: nat, m: Option<Match>)

  /**
   * The split of a message body into `SEVERITY TAG rest`, if the body has that form:
   * a run of upper-case letters, a space, a run of word characters, a space.
   */
  function SplitTag(body: string): (r: Option<(Tagged, string)>)
    ensures r.Some? ==>
      && |r.value.0.severity| > 0 && |r.value.0.tag| > 0
      && (forall k | 0 <= k < |r.value.0.severity| :: IsUpper(r.value.0.severity[k]))
      && (forall k | 0 <= k < |r.value.0.tag| :: IsWord(r.value.0.tag[k]))
      && body == r.value.0.severity + " " + r.value.0.tag + " " + r.value.1
  {
    var k := UpperRun(body);
    if k == 0 || k == |body| || body[k] != ' ' then None
    else
      var rest := body[k + 1..];
      var j := WordRun(rest);
      if j == 0 || j == |rest| || rest[j] != ' ' then None
      else
        assert body == body[..k] + " " + rest[..j] + " " + rest[j + 1..];
        Some((Tagged(body[..k], rest[..j]), rest[j + 1..]))
  }

  /** The groups read from the text after the stamp, once its final line break is removed. */
  function FromBody(stamp: string, body: string): (r: Match)
    ensures r.timeStamp == stamp
    ensures '\n' in r.msg ==> '\n' in body
  {
    match SplitTag(body)
    case Some((t, msg)) =>
      assert msg == body[|body| - |msg|..];
      Match(stamp, Some(t), msg)
    case None => Match(stamp, None, body)
  }

  /**
   * `re_line.match(line)`. `.` stops at a line break and `$` matches at the end or
   * before a final line break, so the text after the stamp may hold a line break
   * only as its last character.
   */
  function MatchLine(line: string): (r: Option<Match>)
    ensures r.Some? ==> StampShape(r.value.timeStamp) && '\n' !in r.value.msg
  {
    if |line| < 24 || !StampShape(line[..23]) || line[23] != ' ' then None
    else
      var body := LineBody(line);
      if '\n' in body then None else Some(FromBody(line[..23], body))
  }

  /** The text after the stamp and its space, without a final line break. */
  function LineBody(line: string): (body: string)
    requires |line| >= 24
    ensures line == line[..24] + body || line == line[..24] + body + "\n"
  {
    var rest := line[24..];
    assert line == line[..24] + rest;
    if |rest| > 0 && rest[|rest| - 1] == '\n' then
      assert rest == rest[..|rest| - 1] + "\n";
      rest[..|rest| - 1]
    else rest
  }

  /** The text a match was read from after the stamp and its space. */
  function Body(m: Match): string {
    if m.tagged.Some? then m.tagged.value.severity + " " + m.tagged.value.tag + " " + m.msg else m.msg
  }

  /** The line a match was read from, without its final line break. */
  function Render(m: Match): string {
    m.timeStamp + " " + Body(m)
  }

  /** What the recogniser can return: the groups have their shapes, and an untagged message does not look tagged. */
  predicate WellFormed(m: Match) {
    && StampShape(m.timeStamp)
    && '\n' !in m.msg
    && (m.tagged.Some? ==>
          && |m.tagged.value.severity| > 0 && |m.tagged.value.tag| > 0
          && (forall k | 0 <= k < |m.tagged.value.severity| :: IsUpper(m.tagged.value.severity[k]))
          && (forall k | 0 <= k < |m.tagged.value.tag| :: IsWord(m.tagged.value.tag[k])))
    && (m.tagged.None? ==> SplitTag(m.msg).None?)
  }

  lemma SplitTagRender(t: Tagged, msg: string)
    requires |t.severity| > 0 && |t.tag| > 0
    requires forall k | 0 <= k < |t.severity| :: IsUpper(t.severity[k])
    requires forall k | 0 <= k < |t.tag| :: IsWord(t.tag[k])
    ensures SplitTag(t.severity + " " + t.tag + " " + msg) == Some((t, msg))
  {
    var body := t.severity + " " + t.tag + " " + msg;
    var n := |t.severity|;
    var after := " " + t.tag + " " + msg;
    assert body == t.severity + after;
    UpperRunExact(t.severity, after);
    assert body[..n] == t.severity && body[n] == ' ';
    var rest := body[n + 1..];
    var tail := " " + msg;
    assert rest == t.tag + tail;
    WordRunExact(t.tag, tail);
    assert rest[..|t.tag|] == t.tag && rest[|t.tag|] == ' ' && rest[|t.tag| + 1..] == msg;
  }

  lemma {:induction false} UpperRunExact(a: string, b: string)
    requires forall k | 0 <= k < |a| :: IsUpper(a[k])
    requires b != [] && b[0] == ' '
    ensures UpperRun(a + b) == |a|
    decreases |a|
  {
    if a == [] {
      assert a + b == b;
    } else {
      assert (a + b)[1..] == a[1..] + b;
      UpperRunExact(a[1..], b);
    }
  }

  lemma {:induction false} WordRunExact(a: string, b: string)
    requires forall k | 0 <= k < |a| :: IsWord(a[k])
    requires b != [] && b[0] == ' '
    ensures WordRun(a + b) == |a|
    decreases |a|
  {
    if a == [] {
      assert a + b == b;
    } else {
      assert (a + b)[1..] == a[1..] + b;
      WordRunExact(a[1..], b);
    }
  }

  /** A stamp, a space and a body without line breaks are recognised. */
  lemma StampedLine(stamp: string, body: string)
    requires StampShape(stamp) && '\n' !in body
    ensures MatchLine(stamp + " " + body) == Some(FromBody(stamp, body))
  {
    var line := stamp + " " + body;
    assert line[..23] == stamp && line[23] == ' ' && line[24..] == body;
    if |body| > 0 {
      assert body[|body| - 1] in body;
    }
  }

  /** ... and so are they followed by a final line break. */
  lemma StampedLineBreak(stamp: string, body: string)
    requires StampShape(stamp) && '\n' !in body
    ensures MatchLine(stamp + " " + body + "\n") == Some(FromBody(stamp, body))
  {
    var line := stamp + " " + body + "\n";
    assert line[..23] == stamp && line[23] == ' ' && line[24..] == body + "\n";
    assert (body + "\n")[..|body|] == body;
  }

  /** The body of a well-formed match holds no line break and reads back as the same match. */
  lemma BodyFromBody(m: Match)
    requires WellFormed(m)
    ensures '\n' !in Body(m)
    ensures FromBody(m.timeStamp, Body(m)) == m
  {
    if m.tagged.Some? {
      var t := m.tagged.value;
      SplitTagRender(t, m.msg);
      assert forall k | 0 <= k < |t.severity| :: t.severity[k] != '\n';
      assert forall k | 0 <= k < |t.tag| :: t.tag[k] != '\n';
      assert '\n' !in t.severity && '\n' !in t.tag;
    }
  }

  /** Round trip: a well-formed match is recognised again in the line it renders to, with or without a final line break. */
  lemma MatchRender(m: Match)
    requires WellFormed(m)
    ensures MatchLine(Render(m)) == Some(m)
    ensures MatchLine(Render(m) + "\n") == Some(m)
  {
    BodyFromBody(m);
    StampedLine(m.timeStamp, Body(m));
    StampedLineBreak(m.timeStamp, Body(m));
  }

  /** Reading a body and writing the match back gives the body again; the match is well formed. */
  lemma FromBodyBody(stamp: string, body: string)
    requires StampShape(stamp) && '\n' !in body
    ensures WellFormed(FromBody(stamp, body))
    ensures Body(FromBody(stamp, body)) == body
  {
  }

  /** Conversely, every match is the rendering of its own line. */
  lemma RenderMatch(line: string)
    requires MatchLine(line).Some?
    ensures WellFormed(MatchLine(line).value)
    ensures line == Render(MatchLine(line).value) || line == Render(MatchLine(line).value) + "\n"
  {
    var stamp := line[..23];
    var body := LineBody(line);
    var m := FromBody(stamp, body);
    FromBodyBody(stamp, body);
    assert line[..24] == stamp + " ";
  }

  // ---------------------------------------------------------------------
  // parse_file.

  /** `parse_file` without a window: every line, stripped of trailing whitespace, numbered from 1. */
  function ParseAll(lines: seq<string>): (r: seq<Log>)
    ensures |r| == |lines|
    ensures forall i | 0 <= i < |lines| :: r[i].lineno == i + 1 && r[i].m == MatchLine(RStrip(lines[i]))
  {
    seq(|lines|, i requires 0 <= i < |lines| => Log(i + 1, MatchLine(RStrip(lines[i]))))
  }

  /** A stripped line holds no final line break, so a match of it carries the whole rest of the line. */
  lemma ParseAllRender(lines: seq<string>, i: int)
    requires 0 <= i < |lines| && ParseAll(lines)[i].m.Some?
    ensures Render(ParseAll(lines)[i].m.value) == RStrip(lines[i])
  {
    var s := RStrip(lines[i]);
    RenderMatch(s);
  }

  /** The index of the first line at or after `i` that is not below `from`, or the number of lines. */
  function FirstNotBelow(lines: seq<string>, from: string, i: nat): (s: nat)
    requires i <= |lines|
    ensures i <= s <= |lines|
    ensures forall k | i <= k < s :: LexLess(lines[k], from)
    ensures s < |lines| ==> !LexLess(lines[s], from)
    decreases |lines| - i
  {
    if i == |lines| || !LexLess(lines[i], from) then i else FirstNotBelow(lines, from, i + 1)
  }

  /** A line after the window: above `to` and beginning with "202". */
  predicate Stops(line: string, to: string) {
    LexLess(to, line) && "202" <= line
  }

  /** The index of the first line at or after `i` that ends the window, or the number of lines. */
  function FirstStop(lines: seq<string>, to: string, i: nat): (e: nat)
    requires i <= |lines|
    ensures i <= e <= |lines|
    ensures forall k | i <= k < e :: !Stops(lines[k], to)
    ensures e < |lines| ==> Stops(lines[e], to)
    decreases |lines| - i
  {
    if i == |lines| || Stops(lines[i], to) then i else FirstStop(lines, to, i + 1)
  }

  /**
   * The scan of `parse_file` with the window `(from, to)`: lines below `from` are
   * skipped until the first that is not; from there lines are taken until the first
   * that is above `to` and begins with "202". Returns the window `[first, stop)`.
   */
  method ScanWindow(lines: seq<string>, from: string, to: string) returns (first: nat, stop: nat)
    ensures first == FirstNotBelow(lines, from, 0)
    ensures stop == FirstStop(lines, to, first)
  {
    ghost var s := FirstNotBelow(lines, from, 0);
    ghost var e := FirstStop(lines, to, s);
    var started := false;
    first := 0;
    var i := 0;
    while i < |lines|
      invariant 0 <= i <= |lines|
      invariant !started ==> i <= s
      invariant started ==> first == s < i <= e
    {
      var line := lines[i];
      if !started {
        if LexLess(line, from) {
          i := i + 1;
          continue;
        }
        started := true;
        first := i;
      }
      if Stops(line, to) {
        return first, i;
      }
      i := i + 1;
    }
    if !started {
      first := i;
    }
    stop := i;
  }

  /** `parse_file` with a window: the lines of the window, unstripped, numbered from 1. */
  method ParseWindow(lines: seq<string>, from: string, to: string) returns (logs: seq<Log>)
    ensures var s := FirstNotBelow(lines, from, 0);
      var e := FirstStop(lines, to, s);
      && |logs| == e - s
      && forall k | 0 <= k < |logs| :: logs[k] == Log(s + k + 1, MatchLine(lines[s + k]))
  {
    var first, stop := ScanWindow(lines, from, to);
    logs := seq(stop - first, k requires 0 <= k < stop - first => Log(first + k + 1, MatchLine(lines[first + k])));
  }
}

=== FILE: magnet_ramping.dfy ===
/**
 * The ramping state machine of one axis (`RampingStatemachineMagnet`).
 *
 * A magnet without a switch heater is simply ramped to its setpoint. A
 * switch-heated magnet is first brought to the current stored in the coil,
 * its switch is heated, the field is ramped, and afterwards the switch is
 * cooled and the supply current zeroed, unless the station's hold flags say
 * to stop earlier. Each tick is a pure function of the machine, the axis
 * handle, the replies of the supply during the tick, the hold flags and the
 * clock; it returns the new machine, the new handle, the commands written,
 * and the exception raised, if any.
 */
module MagnetRamping {
  import opened Wrappers
  import opened Errors
  import opened Config
  import opened InstrumentState
  import opened Instrument

  /** `MagnetRampingState`. */
  datatype Phase =
    | INIT
    | WAITFOR_CURRENT
    | WAITFOR_SWITCH_WARM
    | WAITFOR_HOLDING
    | WAITFOR_SWITCH_COLD
    | WAITFOR_ZERO_CURRENT
    | DONE

  /** The integer value of each phase. */
  function Ordinal(p: Phase): (r: int)
    ensures 1 <= r <= 7
    ensures r == 7 <==> p == DONE
  {
    match p
    case INIT => 1
    case WAITFOR_CURRENT => 2
    case WAITFOR_SWITCH_WARM => 3
    case WAITFOR_HOLDING => 4
    case WAITFOR_SWITCH_COLD => 5
    case WAITFOR_ZERO_CURRENT => 6
    case DONE => 7
  }

  function PhaseName(p: Phase): string {
    match p
    case INIT => "INIT"
    case WAITFOR_CURRENT => "WAITFOR_CURRENT"
    case WAITFOR_SWITCH_WARM => "WAITFOR_SWITCH_WARM"
    case WAITFOR_HOLDING => "WAITFOR_HOLDING"
    case WAITFOR_SWITCH_COLD => "WAITFOR_SWITCH_COLD"
    case WAITFOR_ZERO_CURRENT => "WAITFOR_ZERO_CURRENT"
    case DONE => "DONE"
  }

  /** Distinct phases have distinct names, so a phase change always shows in a state text. */
  lemma PhaseNameInjective(p: Phase, q: Phase)
    requires PhaseName(p) == PhaseName(q)
    ensures p == q
  {
  }

  /** The machine of one axis: its phase and the deadline of the phase, in clock seconds. */
  datatype Machine = Machine(phase: Phase, timeout: real)

  /** The outcome of one tick. When `fault` is present the tick raised after the listed commands were written. */
  datatype Step = Step(machine: Machine, axis: AxisRuntime, commands: seq<Command>, fault: Option<Fault>)

  /** The tolerance below which the recorded field counts as already at the setpoint. */
  const AtSetpoint: real := 0.000_000_000_001

  /**
   * Creating a machine: the deadline is the current time; the ramp is skipped
   * (the machine is DONE at once) exactly when a previous ramp ended within
   * the tolerance of the setpoint and the supply reports HOLDING.
   */
  function Start(axis: AxisRuntime, obs: Observation, now: real): (m: Machine)
    ensures m.timeout == now
    ensures m.phase == INIT || m.phase == DONE
    ensures m.phase == DONE <==>
      && axis.fieldActual.Some?
      && Abs(axis.setpoint - axis.fieldActual.value) < AtSetpoint
      && obs.state == AMI430State.HOLDING
  {
    if axis.fieldActual.Some? && Abs(axis.setpoint - axis.fieldActual.value) < AtSetpoint && obs.state == AMI430State.HOLDING
    then Machine(DONE, now)
    else Machine(INIT, now)
  }

  /** The writes of the inner `start_ramping`: pause, load rate and target, ramp. */
  function StartRampingCommands(axis: AxisRuntime): (r: seq<Command>)
    ensures |r| == 4 && r[0] == Pause && r[3] == Ramp
    ensures ConfRampRate(axis.rampRate) in r && ConfTarget(axis.setpoint) in r
  {
    [Pause, ConfRampRate(axis.rampRate), ConfTarget(axis.setpoint), Ramp]
  }

  /** `_tick`: one step of the machine. */
  function Tick(m: Machine, axis: AxisRuntime, obs: Observation, flags: HoldFlags, now: real): (s: Step)
    ensures Ordinal(s.machine.phase) >= Ordinal(m.phase)
    ensures s.machine.phase == m.phase && s.fault.None? ==> s == Step(m, axis, [], None)
    ensures s.fault.Some? ==> s.machine.phase != DONE && |s.commands| <= 1
    ensures s.axis.magnet == axis.magnet && s.axis.setpoint == axis.setpoint && s.axis.rampRate == axis.rampRate
    ensures s.axis.fieldActual != axis.fieldActual ==> s.axis.fieldActual == Some(axis.setpoint)
  {
    var stay := Step(m, axis, [], None);
    match m.phase
    case INIT =>
      if !axis.magnet.hasSwitchheater then
        Step(m.(phase := WAITFOR_HOLDING), axis, StartRampingCommands(axis), None)
      else if obs.switchheater == 1 then
        Step(m.(phase := WAITFOR_SWITCH_WARM), axis, [Pause], None)
      else (
        match ExpectedCurrentRamptime(axis.magnet)
        case Failure(e) => Step(m, axis, [Ramp], Some(e))
        case Success(t) => Step(Machine(WAITFOR_CURRENT, now + t * 1.5), axis, [Ramp], None))
    case WAITFOR_CURRENT =>
      if obs.state != AMI430State.HOLDING then stay
      else (
        match axis.magnet.switchheaterHeatTimeS
        case None => Step(m, axis, [HeaterOn], Some(TypeError))
        case Some(h) => Step(Machine(WAITFOR_SWITCH_WARM, now + h + 10.0), axis, [HeaterOn], None))
    case WAITFOR_SWITCH_WARM =>
      if obs.state != AMI430State.PAUSED then stay
      else Step(m.(phase := WAITFOR_HOLDING), axis, StartRampingCommands(axis), None)
    case WAITFOR_HOLDING =>
      if obs.state != AMI430State.HOLDING then stay
      else
        var reached := axis.(fieldActual := Some(axis.setpoint));
        if !axis.magnet.hasSwitchheater || flags.switchheaterOn then
          Step(m.(phase := DONE), reached, [], None)
        else (
          match axis.magnet.switchheaterCoolTimeS
          case None => Step(m, reached, [HeaterOff], Some(TypeError))
          case Some(c) => Step(Machine(WAITFOR_SWITCH_COLD, now + c + 10.0), reached, [HeaterOff], None))
    case WAITFOR_SWITCH_COLD =>
      if obs.state == AMI430State.HOLDING then
        if flags.current then Step(m.(phase := DONE), axis, [], None)
        else (
          match ExpectedCurrentRamptime(axis.magnet)
          case Failure(e) => Step(m.(phase := WAITFOR_ZERO_CURRENT), axis, [Zero], Some(e))
          case Success(t) => Step(Machine(WAITFOR_ZERO_CURRENT, now + t * 1.5), axis, [Zero], None))
      else if now > m.timeout then Step(m, axis, [], Some(Raised("Timeout")))
      else stay
    case WAITFOR_ZERO_CURRENT =>
      if obs.state == AT_ZERO_CURRENT then Step(m.(phase := DONE), axis, [], None)
      else if now > m.timeout then Step(m, axis, [], Some(Raised("Timeout")))
      else stay
    case DONE =>
      stay
  }

  // ---------------------------------------------------------------------
  // Properties of a single tick.

  /** DONE is absorbing: a finished machine neither moves, writes nor raises. */
  lemma DoneAbsorbing(m: Machine, axis: AxisRuntime, obs: Observation, flags: HoldFlags, now: real)
    requires m.phase == DONE
    ensures Tick(m, axis, obs, flags, now) == Step(m, axis, [], None)
  {
  }

  /**
   * Only the two phases after the ramp have a deadline: a tick raises "Timeout"
   * exactly when the machine waits for the switch to cool or the current to
   * reach zero, the awaited report has not come, and the clock is past the deadline.
   */
  lemma TimeoutExactly(m: Machine, axis: AxisRuntime, obs: Observation, flags: HoldFlags, now: real)
    ensures Tick(m, axis, obs, flags, now).fault == Some(Raised("Timeout")) <==>
      || (m.phase == WAITFOR_SWITCH_COLD && obs.state != AMI430State.HOLDING && now > m.timeout)
      || (m.phase == WAITFOR_ZERO_CURRENT && obs.state != AT_ZERO_CURRENT && now > m.timeout)
  {
  }

  /** A magnet without a switch heater only ever passes through INIT, WAITFOR_HOLDING and DONE. */
  predicate PhaseFits(p: Phase, magnet: Magnet) {
    !magnet.hasSwitchheater ==> p == INIT || p == WAITFOR_HOLDING || p == DONE
  }

  /** The heater phases are never entered for a magnet without a heater. */
  lemma TickKeepsPhaseFit(m: Machine, axis: AxisRuntime, obs: Observation, flags: HoldFlags, now: real)
    requires PhaseFits(m.phase, axis.magnet)
    ensures PhaseFits(Tick(m, axis, obs, flags, now).machine.phase, axis.magnet)
  {
  }

  /** For a magnet that passed the construction check, a timeout is the only exception a tick raises. */
  lemma ConsistentOnlyTimesOut(m: Machine, axis: AxisRuntime, obs: Observation, flags: HoldFlags, now: real)
    requires Consistent(axis.magnet) && PhaseFits(m.phase, axis.magnet)
    ensures Tick(m, axis, obs, flags, now).fault.Some? ==> Tick(m, axis, obs, flags, now).fault == Some(Raised("Timeout"))
  {
    if axis.magnet.hasSwitchheater {
      assert ExpectedCurrentRamptime(axis.magnet).Success?;
    }
  }

  /**
   * The end of the ramp: on HOLDING the reached field is recorded as the setpoint;
   * the machine is finished when there is no switch heater or the switch is to
   * stay heated, and otherwise the heater is switched off and the machine waits
   * for the switch to cool.
   */
  lemma HoldingOutcome(m: Machine, axis: AxisRuntime, obs: Observation, flags: HoldFlags, now: real)
    requires m.phase == WAITFOR_HOLDING && obs.state == AMI430State.HOLDING
    requires Consistent(axis.magnet)
    ensures var s := Tick(m, axis, obs, flags, now);
      && s.axis.fieldActual == Some(axis.setpoint)
      && s.fault.None?
      && (s.machine.phase == DONE <==> !axis.magnet.hasSwitchheater || flags.switchheaterOn)
      && (s.machine.phase == DONE ==> s.commands == [])
      && (s.machine.phase != DONE ==>
            s.machine.phase == WAITFOR_SWITCH_COLD && s.commands == [HeaterOff]
            && s.machine.timeout == now + axis.magnet.switchheaterCoolTimeS.value + 10.0)
  {
  }

  /**
   * Parking a cooled switch: on HOLDING the machine is finished when the current
   * is to be held, and otherwise the current is zeroed under a deadline of one and
   * a half times the expected ramp time of the full current.
   */
  lemma ColdOutcome(m: Machine, axis: AxisRuntime, obs: Observation, flags: HoldFlags, now: real)
    requires m.phase == WAITFOR_SWITCH_COLD && obs.state == AMI430State.HOLDING
    requires Consistent(axis.magnet) && axis.magnet.hasSwitchheater
    ensures var s := Tick(m, axis, obs, flags, now);
      && s.fault.None?
      && (s.machine.phase == DONE <==> flags.current)
      && (!flags.current ==>
            s.machine.phase == WAITFOR_ZERO_CURRENT && s.commands == [Zero]
            && s.machine.timeout == now + ExpectedCurrentRamptime(axis.magnet).value * 1.5)
  {
  }

  /** A ramp is only started with the handle's own rate and target, and only from INIT or WAITFOR_SWITCH_WARM. */
  lemma RampWithSetpoint(m: Machine, axis: AxisRuntime, obs: Observation, flags: HoldFlags, now: real)
    ensures var s := Tick(m, axis, obs, flags, now);
      ConfTarget(axis.setpoint) in s.commands <==>
        s.machine.phase == WAITFOR_HOLDING && m.phase != WAITFOR_HOLDING
  {
  }

  // ---------------------------------------------------------------------
  // Runs of ticks.

  /** The inputs of one tick. */
  datatype Input = Input(obs: Observation, flags: HoldFlags, now: real)

  /** A run of ticks: stops at the first exception and returns the final machine and handle. */
  function Run(m: Machine, axis: AxisRuntime, inputs: seq<Input>): (r: (Machine, AxisRuntime))
    decreases |inputs|
  {
    if inputs == [] then (m, axis)
    else
      var s := Tick(m, axis, inputs[0].obs, inputs[0].flags, inputs[0].now);
      if s.fault.Some? then (s.machine, s.axis) else Run(s.machine, s.axis, inputs[1..])
  }

  /** The number of ticks of a run that changed the phase. */
  function Transitions(m: Machine, axis: AxisRuntime, inputs: seq<Input>): nat
    decreases |inputs|
  {
    if inputs == [] then 0
    else
      var s := Tick(m, axis, inputs[0].obs, inputs[0].flags, inputs[0].now);
      var moved := if s.machine.phase != m.phase then 1 else 0;
      if s.fault.Some? then moved else moved + Transitions(s.machine, s.axis, inputs[1..])
  }

  /**
   * However long the run, every phase change moves forward: the number of
   * changes is bounded by the ordinal distance covered, so a machine makes at
   * most six transitions in its life.
   */
  lemma {:induction false} TransitionsBounded(m: Machine, axis: AxisRuntime, inputs: seq<Input>)
    ensures Ordinal(Run(m, axis, inputs).0.phase) >= Ordinal(m.phase)
    ensures Transitions(m, axis, inputs) <= Ordinal(Run(m, axis, inputs).0.phase) - Ordinal(m.phase)
    ensures Transitions(m, axis, inputs) <= 6
    decreases |inputs|
  {
    if inputs != [] {
      var s := Tick(m, axis, inputs[0].obs, inputs[0].flags, inputs[0].now);
      if s.fault.None? {
        TransitionsBounded(s.machine, s.axis, inputs[1..]);
      }
    }
  }
}

=== FILE: states.dfy ===
/** The operating states an AMI 430 supply reports in reply to `STATE?`. */
module InstrumentState {
  import opened DriverUtils

  datatype AMI430State =
    | RAMPING | HOLDING | PAUSED | MANUAL_UP | MANUAL_DOWN
    | ZEROING_CURRENT | QUENCH_DETECTED | AT_ZERO_CURRENT | HEATING_SWITCH | COOLING_SWITCH

  function StateName(s: AMI430State): string {
    match s
    case RAMPING => "RAMPING"
    case HOLDING => "HOLDING"
    case PAUSED => "PAUSED"
    case MANUAL_UP => "MANUAL_UP"
    case MANUAL_DOWN => "MANUAL_DOWN"
    case ZEROING_CURRENT => "ZEROING_CURRENT"
    case QUENCH_DETECTED => "QUENCH_DETECTED"
    case AT_ZERO_CURRENT => "AT_ZERO_CURRENT"
    case HEATING_SWITCH => "HEATING_SWITCH"
    case COOLING_SWITCH => "COOLING_SWITCH"
  }

  /** The number the instrument uses for the state. */
  function StateNumber(s: AMI430State): int {
    match s
    case RAMPING => 1
    case HOLDING => 2
    case PAUSED => 3
    case MANUAL_UP => 4
    case MANUAL_DOWN => 5
    case ZEROING_CURRENT => 6
    case QUENCH_DETECTED => 7
    case AT_ZERO_CURRENT => 8
    case HEATING_SWITCH => 9
    case COOLING_SWITCH => 10
  }

  function StateValue(s: AMI430State): EnumValue {
    IntValue(StateNumber(s))
  }

  const StateClass: EnumClass<AMI430State> := EnumClass(
    [RAMPING, HOLDING, PAUSED, MANUAL_UP, MANUAL_DOWN,
     ZEROING_CURRENT, QUENCH_DETECTED, AT_ZERO_CURRENT, HEATING_SWITCH, COOLING_SWITCH],
    StateName, StateValue)

  lemma StateClassWellFormed()
    ensures WellFormed(StateClass)
  {
    var ms := StateClass.members;
    forall t: AMI430State
      ensures t in ms
    {
      assert ms[StateNumber(t) - 1] == t;
    }
    assert forall i | 0 <= i < |ms| :: StateNumber(ms[i]) == i + 1;
  }
}

/**
 * The aggregate status a station reports to the measurement program
 * (`LabberState`), the control mode, the table from instrument state to
 * status, and the type-checked enum comparison `eq`.
 */
module StationStatus {
  import opened Wrappers
  import opened Errors
  import opened Text
  import opened DriverUtils
  import opened InstrumentState

  datatype LabberState = RAMPING | HOLDING | PAUSED | IDLE | MISALIGNED | ERROR

  function LabberName(l: LabberState): string {
    match l
    case RAMPING => "RAMPING"
    case HOLDING => "HOLDING"
    case PAUSED => "PAUSED"
    case IDLE => "IDLE"
    case MISALIGNED => "MISALIGNED"
    case ERROR => "ERROR"
  }

  function LabberNumber(l: LabberState): int {
    match l
    case RAMPING => 1
    case HOLDING => 2
    case PAUSED => 3
    case IDLE => 4
    case MISALIGNED => 5
    case ERROR => 6
  }

  function LabberValue(l: LabberState): EnumValue {
    IntValue(LabberNumber(l))
  }

  const LabberClass: EnumClass<LabberState> := EnumClass(
    [LabberState.RAMPING, LabberState.HOLDING, LabberState.PAUSED, IDLE, MISALIGNED, ERROR],
    LabberName, LabberValue)

  lemma LabberClassWellFormed()
    ensures WellFormed(LabberClass)
  {
    var ms := LabberClass.members;
    forall t: LabberState
      ensures t in ms
    {
      assert ms[LabberNumber(t) - 1] == t;
    }
    assert forall i | 0 <= i < |ms| :: LabberNumber(ms[i]) == i + 1;
  }

  datatype ControlMode = PASSIVE | RAMPING_WAIT

  function ModeName(m: ControlMode): string {
    match m
    case PASSIVE => "PASSIVE"
    case RAMPING_WAIT => "RAMPING_WAIT"
  }

  function ModeNumber(m: ControlMode): int {
    match m
    case PASSIVE => 1
    case RAMPING_WAIT => 2
  }

  function ModeValue(m: ControlMode): EnumValue {
    IntValue(ModeNumber(m))
  }

  const ModeClass: EnumClass<ControlMode> := EnumClass([PASSIVE, RAMPING_WAIT], ModeName, ModeValue)

  lemma ModeClassWellFormed()
    ensures WellFormed(ModeClass)
  {
    var ms := ModeClass.members;
    forall t: ControlMode
      ensures t in ms
    {
      assert ms[ModeNumber(t) - 1] == t;
    }
  }

  /**
   * `AMI430State.labber_state`: the three steady states map to their namesakes,
   * the two zero-current states to IDLE, and every other state to ERROR.
   */
  function LabberOf(s: AMI430State): (r: LabberState)
    ensures s == AMI430State.RAMPING <==> r == LabberState.RAMPING
    ensures s == AMI430State.HOLDING <==> r == LabberState.HOLDING
    ensures s == AMI430State.PAUSED <==> r == LabberState.PAUSED
    ensures r == IDLE <==> s in {ZEROING_CURRENT, AT_ZERO_CURRENT}
    ensures r == ERROR <==> s in {MANUAL_UP, MANUAL_DOWN, QUENCH_DETECTED, HEATING_SWITCH, COOLING_SWITCH}
    ensures r != MISALIGNED
  {
    match s
    case RAMPING => LabberState.RAMPING
    case HOLDING => LabberState.HOLDING
    case PAUSED => LabberState.PAUSED
    case ZEROING_CURRENT => IDLE
    case AT_ZERO_CURRENT => IDLE
    case _ => ERROR
  }

  /** A member of any of the driver's enumerations, tagged with its class. */
  datatype AnyEnum =
    | OfState(state: AMI430State)
    | OfLabber(labber: LabberState)
    | OfMode(mode: ControlMode)
    | OfLogging(logging: EnumLogging)

  predicate SameClass(a: AnyEnum, b: AnyEnum) {
    || (a.OfState? && b.OfState?)
    || (a.OfLabber? && b.OfLabber?)
    || (a.OfMode? && b.OfMode?)
    || (a.OfLogging? && b.OfLogging?)
  }

  /** `eq`: asserts that both operands belong to the same enumeration, then compares them. */
  function Eq(a: AnyEnum, b: AnyEnum): (r: Result<bool, Fault>)
    ensures r.Success? <==> SameClass(a, b)
    ensures r.Failure? ==> r.error == AssertionError
    ensures r.Success? ==> (r.value <==> a == b)
  {
    if SameClass(a, b) then Success(a == b) else Failure(AssertionError)
  }

  /** The reply "2" decodes to HOLDING. */
  lemma HoldingReply()
    ensures FromVisa(StateClass, "2") == Success(AMI430State.HOLDING)
  {
    StateClassWellFormed();
    FromVisaValue(StateClass, AMI430State.HOLDING, 2);
    assert IntText(2) == "2";
  }

  /** Every state decodes from its number, whatever whitespace surrounds the reply. */
  lemma PaddedReply(s: AMI430State, pre: string, post: string)
    requires AllSpace(pre) && AllSpace(post)
    ensures FromVisa(StateClass, pre + IntText(StateNumber(s)) + post) == Success(s)
  {
    var text := pre + IntText(StateNumber(s)) + post;
    ParsePaddedText(pre, StateNumber(s), post);
    StateClassWellFormed();
    var r := FromVisa(StateClass, text);
    assert s in StateClass.members;
    assert r.Success?;
    ValuesInjective(StateClass, r.value, s);
  }

  /** The reply "11" is no state: the code lets a bare `ValueError` escape. */
  lemma UnknownReply()
    ensures FromVisaAsWritten(StateClass, "11") == Failure(ValueError)
    ensures FromVisa(StateClass, "11") == Failure(Raised(UnknownMessage(StateClass, "11")))
  {
    assert IntText(11) == "11" by {
      assert NatText(11) == NatText(1) + [DigitChar(1)];
    }
    assert forall m | m in StateClass.members :: StateNumber(m) <= 10;
    FromVisaUnknownValue(StateClass, 11);
  }

  /** A state name is not a reply: "HOLDING" is not an integer. */
  lemma NameIsNoReply()
    ensures FromVisa(StateClass, "HOLDING") == Failure(Raised(UnknownMessage(StateClass, "HOLDING")))
  {
    StripUnchanged("HOLDING");
    assert !IsDigit("HOLDING"[0]);
    assert ParseInt("HOLDING").None?;
  }
}

=== FILE: station_ramping.dfy ===
/**
 * The station orchestrator (`RampingStatemachineStation`): a queue of axes
 * waiting to be ramped, ordered by signed field increment, and at most one
 * active per-axis machine. Axes are ramped strictly one after the other.
 */
module StationRamping {
  import opened Wrappers
  import opened Errors
  import opened Text
  import opened Config
  import opened Instrument
  import opened MagnetRamping

  /** The axis being ramped and its machine. */
  datatype Active = Active(axis: AxisName, machine: Machine)

  /** `RampingStatemachineStation`: the waiting axes, the active one, and whether all ramps are finished. */
  datatype Orchestrator = Orchestrator(queue: seq<AxisName>, current: Option<Active>, done: bool)

  /** A new orchestrator: nothing to ramp, and done. */
  const Idle: Orchestrator := Orchestrator([], None, true)

  /**
   * What the orchestrator keeps true between ticks, given the station's axis handles:
   * every queued or active axis has a handle, an active machine is never DONE and
   * never in a heater phase its magnet cannot be in, and a done orchestrator has
   * nothing left to ramp.
   */
  predicate Valid(o: Orchestrator, axes: Axes) {
    && (forall i | 0 <= i < |o.queue| :: axes.Get(o.queue[i]).Some?)
    && (o.current.Some? ==>
          && axes.Get(o.current.value.axis).Some?
          && o.current.value.machine.phase != DONE
          && PhaseFits(o.current.value.machine.phase, axes.Get(o.current.value.axis).value.magnet))
    && (o.done ==> o.queue == [] && o.current.None?)
  }

  // ---------------------------------------------------------------------
  // Ordering the axes by increment.

  /** An axis with the field change its next ramp will make. */
  datatype Keyed = Keyed(increment: real, axis: AxisName)

  function Rank(a: AxisName): int {
    match a
    case X => 0
    case Y => 1
    case Z => 2
  }

  /**
   * The order a stable sort by increment produces from a list in X, Y, Z order:
   * by increment, and equal increments in the order X, Y, Z.
   */
  predicate Before(a: Keyed, b: Keyed) {
    a.increment < b.increment || (a.increment == b.increment && Rank(a.axis) < Rank(b.axis))
  }

  lemma BeforeTotal(a: Keyed, b: Keyed)
    ensures a == b || Before(a, b) || Before(b, a)
    ensures !(Before(a, b) && Before(b, a))
  {
    if a.increment == b.increment && Rank(a.axis) == Rank(b.axis) {
      assert a.axis == b.axis;
    }
  }

  ghost predicate SortedKeys(s: seq<Keyed>) {
    forall i, j | 0 <= i < j < |s| :: !Before(s[j], s[i])
  }

  function InsertKeyed(x: Keyed, s: seq<Keyed>): (r: seq<Keyed>)
    requires SortedKeys(s)
    ensures SortedKeys(r)
    ensures multiset(r) == multiset(s) + multiset{x}
    ensures |r| == |s| + 1
  {
    if s == [] then [x]
    else if Before(s[0], x) then
      var t := InsertKeyed(x, s[1..]);
      assert s == [s[0]] + s[1..];
      HeadStaysFirst(s[0], s[1..], x, t);
      [s[0]] + t
    else
      NothingBeforeFirst(s, x);
      [x] + s
  }

  /** Inserting after the head of a sorted list keeps every element not before the head. */
  lemma HeadStaysFirst(h: Keyed, rest: seq<Keyed>, x: Keyed, t: seq<Keyed>)
    requires SortedKeys([h] + rest) && Before(h, x)
    requires multiset(t) == multiset(rest) + multiset{x}
    ensures forall e | e in t :: !Before(e, h)
  {
    forall e | e in t
      ensures !Before(e, h)
    {
      assert e in multiset(t);
      if e != x {
        assert e in multiset(rest);
        var j :| 0 <= j < |rest| && rest[j] == e;
        assert ([h] + rest)[j + 1] == e && ([h] + rest)[0] == h;
      }
    }
  }

  /** When `x` is not after the head of a sorted list, no element of the list is before `x`. */
  lemma NothingBeforeFirst(s: seq<Keyed>, x: Keyed)
    requires SortedKeys(s) && s != [] && !Before(s[0], x)
    ensures forall j | 0 <= j < |s| :: !Before(s[j], x)
  {
    BeforeTotal(s[0], x);
  }

  /** `sorted` with the increment as key, stable: a sorted permutation of its input. */
  function SortKeyed(s: seq<Keyed>): (r: seq<Keyed>)
    ensures SortedKeys(r)
    ensures multiset(r) == multiset(s)
    ensures |r| == |s|
  {
    if s == [] then []
    else
      assert s == [s[0]] + s[1..];
      InsertKeyed(s[0], SortKeyed(s[1..]))
  }

  /** The head of a sorted sequence comes before every other element of it. */
  lemma SortedHeadFirst(s: seq<Keyed>, e: Keyed)
    requires SortedKeys(s) && |s| > 0 && e in multiset(s)
    ensures !Before(e, s[0])
  {
    var j :| 0 <= j < |s| && s[j] == e;
    if j > 0 {
      assert !Before(s[j], s[0]);
    }
  }

  /**
   * There is only one sorted arrangement of a collection: the order is total, so
   * any two sorted permutations of each other coincide.
   */
  lemma {:induction false} SortedUnique(a: seq<Keyed>, b: seq<Keyed>)
    requires SortedKeys(a) && SortedKeys(b)
    requires multiset(a) == multiset(b)
    ensures a == b
    decreases |a|
  {
    if a != [] {
      assert |b| == |a| by {
        assert |multiset(a)| == |a| && |multiset(b)| == |b|;
      }
      assert a[0] in multiset(b) && b[0] in multiset(a);
      SortedHeadFirst(b, a[0]);
      SortedHeadFirst(a, b[0]);
      BeforeTotal(a[0], b[0]);
      assert a[0] == b[0];
      assert a == [a[0]] + a[1..] && b == [b[0]] + b[1..];
      assert multiset(a) == multiset{a[0]} + multiset(a[1..]);
      assert multiset(b) == multiset{b[0]} + multiset(b[1..]);
      assert forall e :: multiset(a[1..])[e] == multiset(b[1..])[e] by {
        forall e
          ensures multiset(a[1..])[e] == multiset(b[1..])[e]
        {
          assert multiset(a)[e] == multiset{a[0]}[e] + multiset(a[1..])[e];
          assert multiset(b)[e] == multiset{b[0]}[e] + multiset(b[1..])[e];
        }
      }
      assert multiset(a[1..]) == multiset(b[1..]);
      SortedUnique(a[1..], b[1..]);
    } else {
      assert |multiset(b)| == 0;
    }
  }

  /** The change of field the next ramp of a present axis makes: setpoint minus the field measured now. */
  function Increment(axes: Axes, readings: Readings, a: AxisName): real
    requires axes.Get(a).Some?
  {
    axes.Get(a).value.setpoint - readings.Of(a).field
  }

  /** The `(increment, magnet)` pairs of the present axes, in the order X, Y, Z. */
  function Increments(axes: Axes, readings: Readings): (r: seq<Keyed>)
    ensures |r| == |axes.Present()|
    ensures forall i | 0 <= i < |r| ::
      r[i].axis == axes.Present()[i] && r[i].increment == Increment(axes, readings, r[i].axis)
  {
    var p := axes.Present();
    seq(|p|, i requires 0 <= i < |p| => Keyed(Increment(axes, readings, p[i]), p[i]))
  }

  /** The axes of a keyed list, in its order. */
  function Axes0(s: seq<Keyed>): (r: seq<AxisName>)
    ensures |r| == |s| && forall i | 0 <= i < |s| :: r[i] == s[i].axis
  {
    if s == [] then [] else [s[0].axis] + Axes0(s[1..])
  }

  lemma {:induction false} InsertAxes(x: Keyed, s: seq<Keyed>)
    requires SortedKeys(s)
    ensures multiset(Axes0(InsertKeyed(x, s))) == multiset(Axes0(s)) + multiset{x.axis}
    decreases |s|
  {
    if s != [] && Before(s[0], x) {
      InsertAxes(x, s[1..]);
      assert Axes0(InsertKeyed(x, s)) == [s[0].axis] + Axes0(InsertKeyed(x, s[1..]));
      assert Axes0(s) == [s[0].axis] + Axes0(s[1..]);
    }
  }

  /** Sorting the keyed list rearranges its axes and nothing more. */
  lemma {:induction false} SortAxes(s: seq<Keyed>)
    ensures multiset(Axes0(SortKeyed(s))) == multiset(Axes0(s))
    decreases |s|
  {
    if s != [] {
      SortAxes(s[1..]);
      InsertAxes(s[0], SortKeyed(s[1..]));
    }
  }

  /** Some two present axes are due the same increment. */
  predicate HasTie(ks: seq<Keyed>) {
    exists i, j | 0 <= i < j < |ks| :: ks[i].increment == ks[j].increment
  }

  /**
   * `start_ramping`: no longer done, and the present axes appended to the queue
   * (neither the queue nor the active axis is cleared), smallest increment first,
   * ties in the order X, Y, Z.
   */
  function StartRamping(o: Orchestrator, axes: Axes, readings: Readings): (r: Orchestrator)
    ensures !r.done && r.current == o.current
    ensures |r.queue| == |o.queue| + |axes.Present()| && r.queue[..|o.queue|] == o.queue
    ensures multiset(r.queue[|o.queue|..]) == multiset(axes.Present())
    ensures forall i, j | |o.queue| <= i < j < |r.queue| ::
      && axes.Get(r.queue[i]).Some? && axes.Get(r.queue[j]).Some?
      && Increment(axes, readings, r.queue[i]) <= Increment(axes, readings, r.queue[j])
  {
    var block := Block(axes, readings);
    var q := o.queue + block;
    assert q[..|o.queue|] == o.queue && q[|o.queue|..] == block;
    forall i, j | |o.queue| <= i < j < |q|
      ensures axes.Get(q[i]).Some? && axes.Get(q[j]).Some?
      ensures Increment(axes, readings, q[i]) <= Increment(axes, readings, q[j])
    {
      assert q[i] == block[i - |o.queue|] && q[j] == block[j - |o.queue|];
    }
    Orchestrator(q, o.current, false)
  }

  /** The present axes, smallest increment first, ties in the order X, Y, Z. */
  function Block(axes: Axes, readings: Readings): (block: seq<AxisName>)
    ensures |block| == |axes.Present()|
    ensures multiset(block) == multiset(axes.Present())
    ensures forall i | 0 <= i < |block| :: axes.Get(block[i]).Some?
    ensures forall i, j | 0 <= i < j < |block| ::
      Increment(axes, readings, block[i]) <= Increment(axes, readings, block[j])
  {
    BlockOrdered(axes, readings);
    Axes0(SortKeyed(Increments(axes, readings)))
  }

  /** Every entry of the sorted list is a present axis with its own increment. */
  lemma SortedEntries(axes: Axes, readings: Readings)
    ensures var sorted := SortKeyed(Increments(axes, readings));
      forall i | 0 <= i < |sorted| ::
        axes.Get(sorted[i].axis).Some? && sorted[i].increment == Increment(axes, readings, sorted[i].axis)
  {
    var ks := Increments(axes, readings);
    var sorted := SortKeyed(ks);
    forall i | 0 <= i < |sorted|
      ensures axes.Get(sorted[i].axis).Some? && sorted[i].increment == Increment(axes, readings, sorted[i].axis)
    {
      assert sorted[i] in multiset(ks);
      var k :| 0 <= k < |ks| && ks[k] == sorted[i];
    }
  }

  lemma BlockOrdered(axes: Axes, readings: Readings)
    ensures var block := Axes0(SortKeyed(Increments(axes, readings)));
      && |block| == |axes.Present()|
      && multiset(block) == multiset(axes.Present())
      && (forall i | 0 <= i < |block| :: axes.Get(block[i]).Some?)
      && (forall i, j | 0 <= i < j < |block| ::
            Increment(axes, readings, block[i]) <= Increment(axes, readings, block[j]))
  {
    BlockPermutes(axes, readings);
    var sorted := SortKeyed(Increments(axes, readings));
    var block := Axes0(sorted);
    SortedEntries(axes, readings);
    forall i, j | 0 <= i < j < |block|
      ensures Increment(axes, readings, block[i]) <= Increment(axes, readings, block[j])
    {
      assert !Before(sorted[j], sorted[i]);
    }
  }

  /** The sorted block holds exactly the present axes. */
  lemma BlockPermutes(axes: Axes, readings: Readings)
    ensures |Axes0(SortKeyed(Increments(axes, readings)))| == |axes.Present()|
    ensures multiset(Axes0(SortKeyed(Increments(axes, readings)))) == multiset(axes.Present())
  {
    var ks := Increments(axes, readings);
    SortAxes(ks);
    assert Axes0(ks) == axes.Present();
  }

  /** `start_ramping` keeps the orchestrator valid: every axis it queues is present. */
  lemma StartRampingKeepsValid(o: Orchestrator, axes: Axes, readings: Readings)
    requires Valid(o, axes)
    ensures Valid(StartRamping(o, axes, readings), axes)
  {
    var r := StartRamping(o, axes, readings);
    var block := Block(axes, readings);
    assert r.queue == o.queue + block;
    forall i | 0 <= i < |r.queue|
      ensures axes.Get(r.queue[i]).Some?
    {
      if i >= |o.queue| {
        assert r.queue[i] == block[i - |o.queue|];
      }
    }
  }

  /**
   * `start_ramping` as written: `done` is cleared, then the `(increment, magnet)`
   * tuples are sorted. Two equal increments make the sort compare the magnet
   * handles, which have no order, and it raises `TypeError` with the queue untouched.
   * (Any comparison sort has to compare two elements that end up adjacent, and
   * equal increments always leave some adjacent pair with equal increments.)
   */
  function StartRampingAsWritten(o: Orchestrator, axes: Axes, readings: Readings): (r: (Orchestrator, Option<Fault>))
    ensures !r.0.done && r.0.current == o.current
    ensures r.1.Some? <==> HasTie(Increments(axes, readings))
    ensures r.1.Some? ==> r.1 == Some(TypeError) && r.0.queue == o.queue
    ensures r.1.None? ==> r.0 == StartRamping(o, axes, readings)
  {
    if HasTie(Increments(axes, readings)) then (o.(done := false), Some(TypeError))
    else (StartRamping(o, axes, readings), None)
  }

  /**
   * Where the two readings part: with distinct increments they agree, and
   * whenever two present axes are due the same increment (both already at
   * their setpoints, say) the code as written raises.
   */
  lemma TieDiffers(o: Orchestrator, axes: Axes, readings: Readings, a: AxisName, b: AxisName)
    requires a != b && axes.Get(a).Some? && axes.Get(b).Some?
    requires Increment(axes, readings, a) == Increment(axes, readings, b)
    ensures StartRampingAsWritten(o, axes, readings).1 == Some(TypeError)
    ensures StartRamping(o, axes, readings).queue[|o.queue|..] != o.queue[|o.queue|..]
  {
    var ks := Increments(axes, readings);
    var p := axes.Present();
    assert a in p && b in p;
    var i :| 0 <= i < |p| && p[i] == a;
    var j :| 0 <= j < |p| && p[j] == b;
    if i < j {
      assert ks[i].increment == ks[j].increment;
    } else {
      assert ks[j].increment == ks[i].increment;
    }
    assert o.queue[|o.queue|..] == [];
  }

  /** With all increments distinct, the appended block is the one and only sorted arrangement. */
  lemma StartRampingUnique(o: Orchestrator, axes: Axes, readings: Readings, order: seq<Keyed>)
    requires SortedKeys(order) && multiset(order) == multiset(Increments(axes, readings))
    ensures StartRamping(o, axes, readings).queue == o.queue + Axes0(order)
  {
    SortedUnique(order, SortKeyed(Increments(axes, readings)));
  }

  // ---------------------------------------------------------------------
  // Ticks.

  /** The commands of one machine tick, addressed to its axis. */
  function Tag(a: AxisName, cmds: seq<Command>): (r: seq<Sent>)
    ensures |r| == |cmds| && forall i | 0 <= i < |r| :: r[i] == Sent(a, cmds[i])
  {
    seq(|cmds|, i requires 0 <= i < |cmds| => Sent(a, cmds[i]))
  }

  /** The outcome of a station tick; `fault` is the exception that ended it, if any. */
  datatype Stepped = Stepped(orch: Orchestrator, axes: Axes, sent: seq<Sent>, fault: Option<Fault>)

  /**
   * `tick`: with nothing active and nothing queued the station is done; otherwise
   * the head of the queue becomes active if nothing is, the active machine is
   * ticked, and it is dropped once DONE. An exception leaves the machine active.
   */
  function Tick(o: Orchestrator, axes: Axes, readings: Readings, flags: HoldFlags, now: real): (r: Stepped)
    requires Valid(o, axes)
    ensures Valid(r.orch, r.axes)
    ensures o.current.None? && o.queue == [] ==> r == Stepped(o.(done := true), axes, [], None)
    ensures o.current.None? && o.queue != [] ==>
      r.orch.queue == o.queue[1..] && (r.orch.current.Some? ==> r.orch.current.value.axis == o.queue[0])
    ensures o.current.Some? ==> r.orch.queue == o.queue && (r.orch.current.Some? ==> r.orch.current.value.axis == o.current.value.axis)
    ensures r.orch.done <==> o.done || (o.current.None? && o.queue == [])
    ensures forall a: AxisName | r.axes.Get(a) != axes.Get(a) :: forall k | 0 <= k < |r.sent| :: r.sent[k].axis == a
    ensures r.fault.Some? ==> r.orch.current.Some?
  {
    if o.current.None? && o.queue == [] then Stepped(o.(done := true), axes, [], None)
    else
      var head := if o.current.Some? then o.current.value.axis else o.queue[0];
      var handle := axes.Get(head).value;
      var machine := if o.current.Some? then o.current.value.machine else Start(handle, readings.Of(head), now);
      var queue := if o.current.Some? then o.queue else o.queue[1..];
      var s := MagnetRamping.Tick(machine, handle, readings.Of(head), flags, now);
      TickKeepsPhaseFit(machine, handle, readings.Of(head), flags, now);
      var current := if s.machine.phase == DONE then None else Some(Active(head, s.machine));
      var r := Stepped(Orchestrator(queue, current, o.done), axes.With(head, s.axis), Tag(head, s.commands), s.fault);
      assert forall i | 0 <= i < |queue| :: queue[i] in o.queue;
      r
  }

  /**
   * What a tick does when there is something to ramp: the head of the queue, or the
   * active axis, is stepped by its own machine (a new one for a new head); its handle
   * and commands are those of that step; the machine is dropped exactly when it
   * reached DONE, and otherwise stays active with its new phase.
   */
  lemma TickSteps(o: Orchestrator, axes: Axes, readings: Readings, flags: HoldFlags, now: real)
    requires Valid(o, axes) && !(o.current.None? && o.queue == [])
    ensures var head := if o.current.Some? then o.current.value.axis else o.queue[0];
      && axes.Get(head).Some?
      && var handle := axes.Get(head).value;
         var m0 := if o.current.Some? then o.current.value.machine else Start(handle, readings.Of(head), now);
         var s := MagnetRamping.Tick(m0, handle, readings.Of(head), flags, now);
         var r := Tick(o, axes, readings, flags, now);
         && r.axes == axes.With(head, s.axis)
         && r.sent == Tag(head, s.commands)
         && r.fault == s.fault
         && (r.orch.current.None? <==> s.machine.phase == DONE)
         && (r.orch.current.Some? ==> r.orch.current.value == Active(head, s.machine))
         && r.orch.queue == (if o.current.Some? then o.queue else o.queue[1..])
  {
  }

  /** A measure every state-changing tick decreases: queued axes weigh more than any phase of the active one. */
  function Measure(o: Orchestrator): nat {
    9 * |o.queue| + (if o.current.None? then 0 else 8 - Ordinal(o.current.value.machine.phase))
  }

  /**
   * A tick that raises nothing either leaves the queue and the active machine as
   * they were or decreases the measure.
   */
  lemma TickProgress(o: Orchestrator, axes: Axes, readings: Readings, flags: HoldFlags, now: real)
    requires Valid(o, axes)
    ensures var r := Tick(o, axes, readings, flags, now);
      r.fault.None? ==> (r.orch.queue == o.queue && r.orch.current == o.current) || Measure(r.orch) < Measure(o)
  {
  }

  /**
   * For magnets that passed the construction check a station tick raises only a timeout.
   */
  lemma TickOnlyTimesOut(o: Orchestrator, axes: Axes, readings: Readings, flags: HoldFlags, now: real)
    requires Valid(o, axes)
    requires forall a: AxisName | axes.Get(a).Some? :: Consistent(axes.Get(a).value.magnet)
    ensures var r := Tick(o, axes, readings, flags, now);
      r.fault.Some? ==> r.fault == Some(Raised("Timeout"))
  {
    if !(o.current.None? && o.queue == []) {
      var head := if o.current.Some? then o.current.value.axis else o.queue[0];
      var handle := axes.Get(head).value;
      var machine := if o.current.Some? then o.current.value.machine else Start(handle, readings.Of(head), now);
      ConsistentOnlyTimesOut(machine, handle, readings.Of(head), flags, now);
    }
  }

  // ---------------------------------------------------------------------
  // The state text.

  /** `statetext`: the active axis with its phase, then the queued axes, separated by commas. */
  function StateText(o: Orchestrator): string {
    var queued := seq(|o.queue|, i requires 0 <= i < |o.queue| => AxisLabel(o.queue[i]));
    var head := if o.current.Some? then [AxisLabel(o.current.value.axis) + "-" + PhaseName(o.current.value.machine.phase)] else [];
    Join(",", head + queued)
  }

  /** A tick that changes the state text decreases the measure. */
  lemma TextChangeMeansProgress(o: Orchestrator, axes: Axes, readings: Readings, flags: HoldFlags, now: real)
    requires Valid(o, axes)
    ensures var r := Tick(o, axes, readings, flags, now);
      r.fault.None? && StateText(r.orch) != StateText(o) ==> Measure(r.orch) < Measure(o)
  {
    TickProgress(o, axes, readings, flags, now);
  }
}

=== FILE: text.dfy ===
/**
 * The string operations of Python's `str` and `int` that the modelled code
 * relies on: whitespace stripping, code-point ordering, `sorted`, `join`,
 * `split`, `partition`, and the decimal `int(text)` / `str(int)` pair.
 */
module Text {
  import opened Wrappers

  /** Python's `str.isspace` for one character. */
  predicate IsSpace(c: char) {
    || c == ' ' || c == '\t' || c == '\n' || c == '\r' || c == '\U{0B}' || c == '\U{0C}'
    || ('\U{1C}' <= c <= '\U{1F}') || c == '\U{85}' || c == '\U{A0}' || c == '\U{1680}'
    || ('\U{2000}' <= c <= '\U{200A}') || c == '\U{2028}' || c == '\U{2029}'
    || c == '\U{202F}' || c == '\U{205F}' || c == '\U{3000}'
  }

  predicate IsDigit(c: char) {
    '0' <= c <= '9'
  }

  predicate AllDigits(s: string) {
    forall k | 0 <= k < |s| :: IsDigit(s[k])
  }

  /** `s.rstrip()`: drop trailing whitespace. */
  function RStrip(s: string): (r: string)
    ensures r <= s
    ensures |r| > 0 ==> !IsSpace(r[|r| - 1])
    ensures forall k | |r| <= k < |s| :: IsSpace(s[k])
  {
    if |s| > 0 && IsSpace(s[|s| - 1]) then RStrip(s[..|s| - 1]) else s
  }

  /** `s.lstrip()`: drop leading whitespace. */
  function LStrip(s: string): (r: string)
    ensures |r| <= |s| && r == s[|s| - |r|..]
    ensures |r| > 0 ==> !IsSpace(r[0])
    ensures forall k | 0 <= k < |s| - |r| :: IsSpace(s[k])
  {
    if |s| > 0 && IsSpace(s[0]) then LStrip(s[1..]) else s
  }

  /** `s.strip()`. */
  function Strip(s: string): string {
    LStrip(RStrip(s))
  }

  // ---------------------------------------------------------------------
  // Python's `<` on strings: lexicographic by code point, a proper prefix first.

  predicate LexLess(a: string, b: string)
    decreases |a|
  {
    if |b| == 0 then false
    else if |a| == 0 then true
    else a[0] < b[0] || (a[0] == b[0] && LexLess(a[1..], b[1..]))
  }

  lemma {:induction false} LexLessIrreflexive(a: string)
    ensures !LexLess(a, a)
    decreases |a|
  {
    if |a| > 0 {
      LexLessIrreflexive(a[1..]);
    }
  }

  lemma {:induction false} LexLessTransitive(a: string, b: string, c: string)
    requires LexLess(a, b) && LexLess(b, c)
    ensures LexLess(a, c)
    decreases |a|
  {
    if |a| > 0 && a[0] == b[0] && b[0] == c[0] {
      LexLessTransitive(a[1..], b[1..], c[1..]);
    }
  }

  lemma {:induction false} LexLessTotal(a: string, b: string)
    ensures a == b || LexLess(a, b) || LexLess(b, a)
    decreases |a|
  {
    if |a| > 0 && |b| > 0 && a[0] == b[0] {
      LexLessTotal(a[1..], b[1..]);
      if a[1..] == b[1..] {
        assert a == [a[0]] + a[1..] && b == [b[0]] + b[1..];
      }
    }
  }

  /** Non-decreasing under Python's string order. */
  ghost predicate Sorted(s: seq<string>) {
    forall i, j | 0 <= i < j < |s| :: !LexLess(s[j], s[i])
  }

  function Insert(x: string, s: seq<string>): (r: seq<string>)
    requires Sorted(s)
    ensures Sorted(r)
    ensures multiset(r) == multiset(s) + multiset{x}
  {
    if s == [] then [x]
    else if LexLess(s[0], x) then
      var t := Insert(x, s[1..]);
      assert s == [s[0]] + s[1..];
      assert forall e | e in t :: !LexLess(e, s[0]) by {
        forall e | e in t
          ensures !LexLess(e, s[0])
        {
          assert e in multiset(t);
          if e == x {
            if LexLess(x, s[0]) {
              LexLessTransitive(x, s[0], x);
              LexLessIrreflexive(x);
            }
          } else {
            assert e in multiset(s[1..]);
            var j :| 0 <= j < |s[1..]| && s[1..][j] == e;
            assert s[j + 1] == e;
          }
        }
      }
      [s[0]] + t
    else
      assert forall j | 0 <= j < |s| :: !LexLess(s[j], x) by {
        forall j | 0 <= j < |s|
          ensures !LexLess(s[j], x)
        {
          LexLessTotal(s[0], s[j]);
          if LexLess(s[0], s[j]) && LexLess(s[j], x) {
            LexLessTransitive(s[0], s[j], x);
          }
        }
      }
      [x] + s
  }

  /** `sorted(s)` for a list of strings. */
  function Sort(s: seq<string>): (r: seq<string>)
    ensures Sorted(r)
    ensures multiset(r) == multiset(s)
  {
    if s == [] then []
    else
      assert s == [s[0]] + s[1..];
      Insert(s[0], Sort(s[1..]))
  }

  /** `sep.join(parts)`. */
  function Join(sep: string, parts: seq<string>): string {
    if |parts| == 0 then ""
    else if |parts| == 1 then parts[0]
    else parts[0] + sep + Join(sep, parts[1..])
  }

  /** `f'"{s}"'`. */
  function Quote(s: string): string {
    "\"" + s + "\""
  }

  // ---------------------------------------------------------------------
  // `split` and `partition` on a one-character separator.

  /** Index of the first `c` in `s`, or `|s|` if there is none. */
  function FirstIndex(s: string, c: char): (k: nat)
    ensures k <= |s|
    ensures k < |s| ==> s[k] == c
    ensures c !in s[..k]
  {
    if |s| == 0 then 0
    else if s[0] == c then 0
    else
      var k := 1 + FirstIndex(s[1..], c);
      assert s[..k] == [s[0]] + s[1..][..k - 1];
      k
  }

  /** `s.split(sep)`: every piece is free of `sep`, and joining them back gives `s`. */
  function Split(s: string, sep: char): (r: seq<string>)
    ensures |r| >= 1
    ensures forall i | 0 <= i < |r| :: sep !in r[i]
    ensures Join([sep], r) == s
    decreases |s|
  {
    var k := FirstIndex(s, sep);
    if k == |s| then
      assert s[..k] == s;
      [s]
    else
      var rest := Split(s[k + 1..], sep);
      assert s == s[..k] + [sep] + s[k + 1..];
      [s[..k]] + rest
  }

  /** `s.partition(sep)`: the text before the first `sep`, the separator found, and the rest. */
  function Partition(s: string, sep: char): (r: (string, string, string))
    ensures r.0 + r.1 + r.2 == s
    ensures sep !in r.0
    ensures r.1 == [] || r.1 == [sep]
    ensures r.1 == [] <==> sep !in s
    ensures sep !in s ==> r == (s, "", "")
  {
    var k := FirstIndex(s, sep);
    if k == |s| then
      assert s[..k] == s;
      (s, "", "")
    else
      assert s == s[..k] + [sep] + s[k + 1..];
      (s[..k], [sep], s[k + 1..])
  }

  // ---------------------------------------------------------------------
  // Decimal integers: `str(n)` and `int(text)`.

  function DigitValue(c: char): nat
    requires IsDigit(c)
  {
    c as int - '0' as int
  }

  function DigitChar(d: nat): (c: char)
    requires d < 10
    ensures IsDigit(c) && DigitValue(c) == d
  {
    ('0' as int + d) as char
  }

  /** The value of a string of decimal digits, most significant first. */
  function DecimalValue(ds: string): nat
    requires AllDigits(ds)
  {
    if ds == [] then 0
    else DecimalValue(ds[..|ds| - 1]) * 10 + DigitValue(ds[|ds| - 1])
  }

  /** `str(n)` for a natural number. */
  function NatText(n: nat): (r: string)
    ensures |r| > 0 && AllDigits(r)
  {
    if n < 10 then [DigitChar(n)] else NatText(n / 10) + [DigitChar(n % 10)]
  }

  /** `str(i)`. */
  function IntText(i: int): string {
    if i < 0 then "-" + NatText(-i) else NatText(i)
  }

  lemma {:induction false} NatTextValue(n: nat)
    ensures DecimalValue(NatText(n)) == n
  {
    if n >= 10 {
      var ds := NatText(n);
      NatTextValue(n / 10);
      assert ds[..|ds| - 1] == NatText(n / 10);
    }
  }

  /** Digits separated by single underscores, as Python's `int` accepts them. */
  predicate DigitGroups(b: string) {
    && |b| > 0
    && IsDigit(b[0])
    && IsDigit(b[|b| - 1])
    && (forall k | 0 <= k < |b| :: IsDigit(b[k]) || b[k] == '_')
    && (forall k | 0 <= k < |b| - 1 :: b[k] == '_' ==> b[k + 1] != '_')
  }

  function DropUnderscores(b: string): (r: string)
    requires forall k | 0 <= k < |b| :: IsDigit(b[k]) || b[k] == '_'
    ensures AllDigits(r)
    ensures AllDigits(b) ==> r == b
  {
    if b == [] then []
    else if b[0] == '_' then DropUnderscores(b[1..])
    else [b[0]] + DropUnderscores(b[1..])
  }

  function ParseDigitGroups(b: string): Option<nat> {
    if DigitGroups(b) then Some(DecimalValue(DropUnderscores(b))) else None
  }

  /**
   * Python's `int(text)` in base 10: surrounding whitespace, an optional sign, then digits
   * that may be grouped by single underscores. `None` stands for the `ValueError` it raises.
   */
  function ParseInt(s: string): Option<int> {
    var t := Strip(s);
    var signed := |t| > 0 && (t[0] == '+' || t[0] == '-');
    match ParseDigitGroups(if signed then t[1..] else t)
    case None => None
    case Some(n) =>
      var v: int := if signed && t[0] == '-' then -(n as int) else n;
      Some(v)
  }

  /** Text that neither starts nor ends with whitespace is left alone by `strip`. */
  lemma StripUnchanged(t: string)
    requires |t| > 0 && !IsSpace(t[0]) && !IsSpace(t[|t| - 1])
    ensures Strip(t) == t
  {
    assert RStrip(t) == t;
  }

  predicate AllSpace(s: string) {
    forall k | 0 <= k < |s| :: IsSpace(s[k])
  }

  lemma {:induction false} RStripSpaces(t: string, post: string)
    requires |t| > 0 && !IsSpace(t[|t| - 1]) && AllSpace(post)
    ensures RStrip(t + post) == t
    decreases |post|
  {
    if |post| > 0 {
      var u := t + post;
      assert u[..|u| - 1] == t + post[..|post| - 1];
      RStripSpaces(t, post[..|post| - 1]);
    } else {
      assert t + post == t;
    }
  }

  lemma {:induction false} LStripSpaces(pre: string, t: string)
    requires |t| > 0 && !IsSpace(t[0]) && AllSpace(pre)
    ensures LStrip(pre + t) == t
    decreases |pre|
  {
    if |pre| > 0 {
      var u := pre + t;
      assert u[1..] == pre[1..] + t;
      LStripSpaces(pre[1..], t);
    } else {
      assert pre + t == t;
    }
  }

  /** Whitespace around text that neither starts nor ends with whitespace is exactly what `strip` removes. */
  lemma PaddedStrip(pre: string, t: string, post: string)
    requires |t| > 0 && !IsSpace(t[0]) && !IsSpace(t[|t| - 1])
    requires AllSpace(pre) && AllSpace(post)
    ensures Strip(pre + t + post) == t
  {
    var u := pre + t;
    assert u[|u| - 1] == t[|t| - 1];
    RStripSpaces(u, post);
    LStripSpaces(pre, t);
  }

  lemma NatTextGroups(n: nat)
    ensures ParseDigitGroups(NatText(n)) == Some(n)
  {
    var ds := NatText(n);
    NatTextValue(n);
    assert DigitGroups(ds);
    assert DropUnderscores(ds) == ds;
  }

  lemma IntTextStrip(i: int)
    ensures Strip(IntText(i)) == IntText(i)
  {
    var t := IntText(i);
    var n: nat := if i < 0 then -i else i;
    var ds := NatText(n);
    assert t[|t| - 1] == ds[|ds| - 1];
    assert t[0] == '-' || t[0] == ds[0];
    StripUnchanged(t);
  }

  /** `int(str(i)) == i`: the decimal rendering is read back unchanged. */
  lemma {:induction false} ParseIntText(i: int)
    ensures ParseInt(IntText(i)) == Some(i)
  {
    var n: nat := if i < 0 then -i else i;
    var ds := NatText(n);
    var t := IntText(i);
    IntTextStrip(i);
    NatTextGroups(n);
    if i < 0 {
      assert t[1..] == ds;
    } else {
      assert t == ds;
      assert t[0] != '+' && t[0] != '-';
    }
  }

  /** `int` ignores surrounding whitespace: `int(pre + str(i) + post) == i`. */
  lemma ParsePaddedText(pre: string, i: int, post: string)
    requires AllSpace(pre) && AllSpace(post)
    ensures ParseInt(pre + IntText(i) + post) == Some(i)
  {
    IntTextStrip(i);
    var t := IntText(i);
    var n: nat := if i < 0 then -i else i;
    var ds := NatText(n);
    assert t[|t| - 1] == ds[|ds| - 1];
    assert t[0] == '-' || t[0] == ds[0];
    PaddedStrip(pre, t, post);
    ParseIntText(i);
  }
}

=== FILE: wrappers.dfy ===
/** Failure-compatible datatypes shared by every module of the model. */
module Wrappers {

  /** A value that may be absent; Python's `None` on the one side, a value on the other. */
  datatype Option<+T> = None | Some(value: T)

  /** The outcome of a Python call that either returns a value or raises. */
  datatype Result<+T, +E> = Success(value: T) | Failure(error: E) {

    predicate IsFailure() {
      Failure?
    }

    function PropagateFailure<U>(): Result<U, E>
      requires Failure?
    {
      Failure(error)
    }

    function Extract(): T
      requires Success?
    {
      value
    }
  }
}

/** The exceptions the modelled Python code raises, as values. */
module Errors {

  datatype Fault =
    | AssertionError        // a failing `assert`
    | KeyError              // a dictionary or enum-name lookup that misses
    | TypeError             // an operation applied to operands that do not support it
    | ValueError            // a conversion (`int`, `float`, enum-by-value, tuple unpacking) that fails
    | AttributeError        // an attribute read on `None` or a missing attribute
    | IndexError            // an index into an empty string
    | ZeroDivisionError     // a division by zero
    | ConfigurationError    // a magnet configuration rejected at construction
    | Raised(message: string) // a plain `Exception(message)`
}
